=== FILE: README.md ===
# food-planner: a Dafny model of the weekly meal planner

food-planner builds a weekly plan of Peruvian breakfasts and lunches. For each of the seven days, Lunes to Domingo, it draws a drink, a bread and a fruit for breakfast and a dish for lunch. Each list is shuffled once and then read cyclically, so a week repeats nothing when the list is long enough. A plan is dated with the Monday and Sunday of the current week and with that week's ISO 8601 week number; the week number is computed through `Date.UTC`, which reads a year from 0 to 99 as 1900 to 1999, and the model computes that too. The plans are kept in a small history: the current week plus at most four previous weeks. Generating a new plan moves the current week to the front of the previous weeks and cuts them back to four.

This project models that core as pure Dafny functions and proves what it guarantees.

- `types.dfy` (`Types`): the records of the data model — food items, breads, days, meals, plans, the history and action results.
- `food_data.dfy` (`FoodData`): the configured catalogue, the canonical day order and the history bound, with the facts the generator relies on: list sizes and unique ids.
- `seqs.dfy` (`Seqs`): swaps, maps and duplicate-freedom on sequences.
- `selection.dfy` (`Selection`): `shuffleArray` as a Fisher–Yates shuffle and `getRandomItemsForWeek` as its cyclic reading.
- `calendar.dfy` (`Calendar`): proleptic Gregorian dates as day numbers counted from 1970-01-01. It covers weekdays, `setDate` roll-over, the Monday of a week and `getWeekNumber`, with the ISO 8601 week defined independently (section 2.2.10 and section 4.1.4 of ISO 8601:2004).
- `text.dfy` (`Text`): decimal numerals and "YYYY-MM-DD" dates, with round trips in both directions.
- `generator.dfy` (`Generator`): `generateWeeklyMealPlan`, `generateVariation` and `formatWeekRange`.
- `meal_plan.dfy` (`MealPlan`): the server actions `getMealPlanHistory`, `generateNewMealPlan` and `clearHistory`, over an abstract history store.

The things the program takes from its environment are parameters:
- the random numbers: a sequence of swap positions `j <= i` in the order the shuffle loop uses them;
- the current day: a day number;
- the new id and the creation timestamp: strings;
- the catalogue the generator draws from: a `Catalogue` value, with `FoodData.FoodCatalogue` the configured one;
- whether the file write and the page refresh go through: booleans.

Every property is proved for every legal sequence of swap positions, every non-empty catalogue and every day of the years 101 to 9998, and beyond that range wherever a property's own conditions allow.

The plan's `year` field is the calendar year of the current day, not the year its ISO week belongs to. So a plan made on Monday 30 December 2024 reads week 1 of 2024. The source does this, and the model keeps it and states it (`Generator.LateDecemberPlanYear`, `Generator.PlanOn30December2024`).

## Model

| member | source | states |
|---|---|---|
| Types.DayNamesDistinct | src/lib/types.ts:13-20 | the seven day literals are pairwise different, so a day is determined by its name |
| FoodData.DaysOfWeekCanonical | src/config/food-data.ts:86-94 | the day order has seven distinct entries, starts with Lunes, ends with Domingo and holds every day |
| FoodData.DayIndex | src/config/food-data.ts:86-94 | every day sits at a position below 7 of the canonical order |
| FoodData.CatalogueSizes | src/config/food-data.ts:4-83 | the lists hold 7 breads, 8 fruits, 11 drinks and 14 lunches |
| FoodData.BreadIdsDistinct | src/config/food-data.ts:4-37 | no bread id occurs twice |
| FoodData.FruitIdsDistinct | src/config/food-data.ts:40-49 | no fruit id occurs twice |
| FoodData.DrinkIdsDistinct | src/config/food-data.ts:53-65 | no drink id occurs twice, including the three "Café" entries |
| FoodData.LunchIdsDistinct | src/config/food-data.ts:68-83 | no lunch id occurs twice |
| FoodData.CafeListedThrice | src/config/food-data.ts:51-56 | exactly three drinks of the catalogue, the first three, are named "Café" |
| FoodData.CountNamePrefix | src/config/food-data.ts:51-56 | a prefix of a list holds a name at most as often as the list |
| FoodData.CountNameLeading | src/config/food-data.ts:51-56 | when a name's every occurrence is among the first `c` entries, every prefix of length at least `c` holds it `c` times |
| FoodData.CountNamePermutation | src/config/food-data.ts:51-56 | rearranging a list does not change how often a name occurs in it |
| FoodData.FoodCatalogueAmple | src/config/food-data.ts:4-83 | the configured lists are non-empty, hold exactly one bread per day and at least a week of each other category, and have unique ids |
| FoodData.CountNameAppend | src/config/food-data.ts:51-56 | counting a name over two lists joined is the sum of the two counts |
| Selection.DrawIndex | src/lib/generator.ts:17 | `Math.floor(Math.random() * (i + 1))` lands in `0..i` and is the floor of the scaled random number |
| Selection.DrawsFromRandoms | src/lib/generator.ts:16-17 | the draws of the shuffle loop made from any stream of random numbers in [0, 1) form a legal draw sequence |
| Selection.ShuffleFrom | src/lib/generator.ts:16-19 | the loop from iteration `i` down keeps the length, rearranges the entries as a permutation and never touches positions above `i` |
| Selection.ShuffleArray | src/lib/generator.ts:14-21 | the shuffle returns a permutation of the list: same length, same multiset |
| Selection.ShuffleReachesEveryPermutation | src/lib/generator.ts:14-21 | every permutation of the list is the result of some legal draw sequence |
| Selection.DrawsFor | src/lib/generator.ts:16-19 | for a permutation that rearranges the first `i + 1` entries, it constructs the legal draws that make the loop produce it |
| Selection.SwapTowards | src/lib/generator.ts:18 | swapping in the entry the target wants at `i` fixes position `i` and leaves a smaller permutation problem below it |
| Selection.ShuffleDistinct | src/lib/generator.ts:14-21 | shuffling a duplicate-free list gives a duplicate-free list |
| Selection.ShuffleFromMap | src/lib/generator.ts:16-19 | the loop moves positions and ignores values: it commutes with mapping a function over the entries |
| Selection.Cycle | src/lib/generator.ts:31-33 | the push loop yields `count` items, item `i` being entry `i mod n` of the shuffle |
| Selection.RandomItemsForWeek | src/lib/generator.ts:27-36 | on a non-empty list, `count` items, item `i` the shuffled entry at `i mod n`, each one from the list |
| Selection.SelectionMap | src/lib/generator.ts:27-36 | with the same draws, selecting from the images under `f` (such as the ids) is the image of the selection |
| Selection.SelectionDistinct | src/lib/generator.ts:23-33 | at most one pass over a duplicate-free list repeats nothing |
| Selection.SelectionCycles | src/lib/generator.ts:23-33 | when `count >= n` the first `n` items are a permutation of the list and later items repeat with period `n` |
| Selection.SelectionFullPass | src/lib/generator.ts:23-33 | asking for exactly `n` items uses every entry exactly once |
| Selection.KeepOrderDraws | src/lib/generator.ts:14-21 | for every list some legal draws make the shuffle leave it in its order |
| Selection.CycleDistinct | src/lib/generator.ts:31-33 | at most one cyclic pass over a duplicate-free sequence repeats nothing |
| Selection.CyclePeriodic | src/lib/generator.ts:31-33 | the first `n` reads are the sequence itself and later reads repeat with period `n` |
| Seqs.Swap | src/lib/generator.ts:18 | the destructuring swap exchanges the entries at `i` and `j`, keeps the length and leaves every other position alone |
| Calendar.YearOfDate | src/lib/generator.ts:43 | the day number of a valid date's fields lies in that date's year: reading the year back gives the date's year; this is `Date.UTC`'s day only outside the years 0 to 99 |
| Calendar.YearOf | src/lib/generator.ts:47 | `getUTCFullYear` names the year whose January 1 is at or before the day and less than a year length before it |
| Calendar.Weekday | src/lib/generator.ts:45 | `getUTCDay` is a weekday number from 0, Sunday, to 6 |
| Calendar.FromDays | src/lib/generator.ts:43 | the calendar fields of a day number form a valid date whose day number is that day |
| Calendar.FromDaysToDays | src/lib/generator.ts:43 | every valid date comes back from its day number: `FromDays` and `ToDays` are inverse |
| Calendar.ToDaysInjective | src/lib/generator.ts:43 | two valid dates have the same day number exactly when they are equal |
| Calendar.YearOfUnique | src/lib/generator.ts:47 | only one year contains a given day |
| Calendar.DaysBeforeYearStep | src/lib/generator.ts:47 | January 1 of the next year is one year length later, under the Gregorian leap-year rule |
| Calendar.WeekdayAdd | src/lib/generator.ts:45-46 | moving `k` days moves the weekday by `k` modulo 7 |
| Calendar.SetDate | src/lib/generator.ts:57-58 | setting the day of the month moves the day by the difference of the two days of the month, rolling over month ends |
| Calendar.AddDaysIsSetDate | src/lib/generator.ts:67-68 | `setDate(getDate() + k)` is `k` days later, month and year roll-over included |
| Calendar.AddDays | src/lib/generator.ts:67-68 | adding `k` days moves the weekday by `k` modulo 7 |
| Calendar.GetMondayOfWeek | src/lib/generator.ts:54-59 | a Monday at most six days back; a Sunday goes back six days and any other day back to day 1 of its week |
| Calendar.MondayIsSetDate | src/lib/generator.ts:56-58 | the Monday is what `setDate(getDate() - day + diff)` produces |
| Calendar.MondayOfWeekDay | src/lib/generator.ts:54-59 | every day from a Monday to the following Sunday has that Monday as its Monday |
| Calendar.ThursdayOf | src/lib/generator.ts:45-46 | the day reached by moving `4 - dayNum` days, with Sunday counted as 7, is a Thursday, the Monday plus three |
| Calendar.ThursdayIsSetDate | src/lib/generator.ts:45-46 | the Thursday is what `setUTCDate(getUTCDate() + 4 - dayNum)` produces |
| Calendar.CeilDiv | src/lib/generator.ts:48 | `Math.ceil(x / k)` is the least `r` with `x <= k * r` |
| Calendar.UtcWeekNumber | src/lib/generator.ts:45-48 | counted from a day with the Thursday's January 1 taken as it is, without the `Date.UTC` reading of the years 0 to 99, the week number lies in 1..53 |
| Calendar.WeekNumberIsIso | src/lib/generator.ts:45-48 | with the Thursday's January 1 taken as it is, without the `Date.UTC` reading of the years 0 to 99, the week count equals the ISO 8601 week number: whole weeks from the first Thursday of the Thursday's year, plus one |
| Calendar.DateUtc | src/lib/generator.ts:43-47 | `Date.UTC` of a valid date outside the years 0 to 99 is that date's day; for the years 1 to 99 it is the day of the same month and day in 1900 + year |
| Calendar.RebuildFullYear | src/lib/generator.ts:43 | a day outside the years 0 to 99 and January 1 of its year are rebuilt by `Date.UTC` as themselves |
| Calendar.TwoDigitYearShift | src/lib/generator.ts:43 | a date of the years 1 to 99 moved to 1900 + year is still valid, since the leap rule agrees, and its week lies outside the years 0 to 99 |
| Calendar.RebuildTwoDigitYear | src/lib/generator.ts:43 | `Date.UTC` rebuilds a date of the years 1 to 99 as the same month and day of 1900 + year |
| Calendar.RebuildDay | src/lib/generator.ts:43 | `Date.UTC` rebuilds a day as itself when neither it nor its Thursday is in the years 0 to 99, and as the date in 1900 + year for the years 1 to 99 |
| Calendar.RebuildYearStart | src/lib/generator.ts:47 | away from the years 0 to 99, the `Date.UTC` January 1 of the Thursday's year is the real January 1 |
| Calendar.GetWeekNumber | src/lib/generator.ts:41-49 | when neither the day nor its Thursday is in the years 0 to 99, the result is the day's ISO 8601 week number, in 1..53; a date of the years 1 to 99 gets the ISO week of the same date in 1900 + year |
| Calendar.WeekNumberSameAllWeek | src/lib/generator.ts:41-49 | away from the years 0 to 99, all seven days of a Monday-to-Sunday week get the same week number |
| Calendar.IsoWeekSameAllWeek | src/lib/generator.ts:41-49 | all seven days of a Monday-to-Sunday week have the same ISO week |
| Calendar.DaysLater | src/lib/generator.ts:67-68 | up to 28 days after a date, the day of the month grows, then rolls into the next month, and from December into January of the next year |
| Calendar.NearbyDayYear | src/lib/generator.ts:66-68 | days at most a week apart lie in the same or adjacent years |
| Calendar.LateDecemberMondayIsWeekOne | src/lib/generator.ts:41-49 | a Monday on 29, 30 or 31 December has ISO week number 1 and ISO week-numbering year the next year |
| Calendar.December30th2024IsMonday | src/lib/generator.ts:89-90 | 30 December 2024 is a valid date and a Monday |
| Text.ParseDecimal | src/lib/generator.ts:134-135 | the value of `k` decimal digits is below `10^k` |
| Text.NatToString | src/lib/generator.ts:157-159 | a number prints as decimal digits without a leading zero |
| Text.NatToStringRoundTrip | src/lib/generator.ts:157-159 | reading a printed number gives the number back |
| Text.PadDigits | src/lib/generator.ts:91-92 | a number padded to a width has that many digits and reads back as the number |
| Text.PadDigitsOfParse | src/lib/generator.ts:91-92 | a digit string is the padded rendering of its own value |
| Text.IsoDateString | src/lib/generator.ts:91-92 | `toISOString().split("T")[0]` has ten characters with dashes at positions 4 and 7 |
| Text.ParseIsoDate | src/lib/generator.ts:134-135 | a parsed "YYYY-MM-DD" is a valid date with a four-digit year |
| Text.IsoDateRoundTrip | src/lib/generator.ts:91-135 | reading a written date gives the date back |
| Text.IsoDateStringOfParse | src/lib/generator.ts:91-135 | writing a read date gives the string back, so the notation is canonical |
| Generator.AssembleMeals | src/lib/generator.ts:77-85 | seven meals, meal `k` on day `k` of the canonical order, and each column of the week is the selection it was built from |
| Generator.PlanMeals | src/lib/generator.ts:72-85 | the week's meals are well formed, and when the catalogue is ample they serve every bread once and repeat no fruit, drink or lunch id |
| Generator.SelectionFacts | src/lib/generator.ts:72-75 | with an ample catalogue, the bread selection is a permutation of the breads and no selection repeats an id |
| Generator.FoodCatalogueWeeksRepeatFree | src/lib/generator.ts:72-85 | with the configured catalogue, every week serves each of the seven breads once and repeats no fruit, drink or lunch id |
| Generator.WeekDrinksShuffled | src/lib/generator.ts:72-85 | when the drinks list holds a week's worth, the week's drinks are the first seven entries of the shuffled drinks |
| Generator.WeekDrinkNameBound | src/lib/generator.ts:72-85 | a week serves a drink name at most as often as the catalogue lists it |
| Generator.WeekServesCafeAtMostThrice | src/lib/generator.ts:72-85 | with the configured catalogue, every week serves "Café" at most three times |
| Generator.ListedOrderDraws | src/lib/generator.ts:14-21 | for every catalogue there are legal draws that leave all four lists in their order |
| Generator.WeekServesLeadingDrinks | src/lib/generator.ts:72-85 | when the shuffle keeps the drinks in order and a name fills exactly the first `c <= 7` of them, the week serves it `c` times |
| Generator.ListedOrderWeekServesCafeThrice | src/lib/generator.ts:72-85 | with the configured catalogue and draws that keep the drinks in order, the week serves "Café" exactly three times, so the bound is reached |
| Generator.DatableDayYear | src/lib/generator.ts:66-92 | a day lies in the range 0101-01-01 through 9998-12-31 exactly when `getFullYear` of it is 101 to 9998, and then neither it nor its Thursday is in the years 0 to 99 |
| Generator.WeekEndsDatable | src/lib/generator.ts:66-92 | the Monday and Sunday around a datable day have four-digit years |
| Generator.WeekNumberCoversWeek | src/lib/generator.ts:89 | every day from the plan's Monday to its Sunday has the ISO week number of the current day |
| Generator.GenerateWeeklyMealPlan | src/lib/generator.ts:64-96 | it keeps the given id and timestamp; its dates are the Monday and Sunday around the current day; the week number is that day's ISO week; the year is that day's calendar year; the meals are well formed and, with an ample catalogue, repeat-free |
| Generator.PlanWeek | src/lib/generator.ts:66-92 | dates written for the Monday and Sunday of a day, with its week number, date the plan for that day's week |
| Generator.PlanWeekDates | src/lib/generator.ts:66-92 | the written start and end dates parse back to that Monday and the day six later |
| Generator.LateDecemberPlanYear | src/lib/generator.ts:89-90 | a plan made on a Monday from 29 to 31 December has week number 1 but records the earlier calendar year |
| Generator.PlanOn30December2024 | src/lib/generator.ts:89-90 | a plan made on Monday 30 December 2024, from any catalogue and draws, has week number 1 and year 2024 |
| Generator.GenerateVariation | src/lib/generator.ts:102-128 | it keeps the given id and timestamp, copies the original's week number, year and dates, and has well-formed, repeat-free-when-ample meals |
| Generator.VariationIgnoresMeals | src/lib/generator.ts:119-126 | the variation reads only the week of the original: plans for the same week give the same variation |
| Generator.VariationMealsAsGenerated | src/lib/generator.ts:77-117 | with the same draws, a variation and a fresh plan serve the same meals |
| Generator.SameWeekPlanFor | src/lib/generator.ts:119-124 | a plan with the same week as a plan for the current day is also dated for that day's week |
| Generator.MonthName | src/lib/generator.ts:152-153 | the month shown is a three-letter abbreviation |
| Generator.MonthNameRoundTrip | src/lib/generator.ts:137-152 | each month's abbreviation names that month back |
| Generator.MonthNamesDistinct | src/lib/generator.ts:137-156 | two months have the same abbreviation exactly when they are the same month |
| Generator.FormatWeekRange | src/lib/generator.ts:133-160 | "M d1 - d2, Y" when both dates are in the same month and "M1 d1 - M2 d2, Y" otherwise, the year taken from the end date |
| Generator.FormatDates | src/lib/generator.ts:152-159 | the same two shapes on calendar dates: one month name exactly when the months are equal |
| Generator.WeekDatesText | src/lib/generator.ts:152-159 | for a date and the date six days later, the range text is determined by the first date |
| Generator.WeekRangeOfPlan | src/lib/generator.ts:133-160 | a plan's range shows one month name, or two when the week crosses a month end, and the next year when it crosses from December into January |
| Generator.WeekEnd | src/lib/generator.ts:67-68 | the Sunday six days after a Monday in calendar fields: same month, next month, or 1 to 6 January of the next year |
| MealPlan.ReadHistory | src/app/actions/meal-plan.ts:27-39 | a readable file gives the stored history; anything else gives the empty history |
| MealPlan.WriteHistory | src/app/actions/meal-plan.ts:44-47 | after a write that goes through, reading gives the written history; a failed write leaves the file as it was |
| MealPlan.GetMealPlanHistory | src/app/actions/meal-plan.ts:52-65 | it always succeeds with what reading gives, the empty history for an unreadable file |
| MealPlan.Failure | src/app/actions/meal-plan.ts:103-129 | a failure has no data and carries its error message |
| MealPlan.RotateHistory | src/app/actions/meal-plan.ts:79-94 | the new plan becomes current; an old current week becomes the first previous week, followed by the old previous weeks in order, cut to `min(old + 1, 4)`; without a current week the previous weeks are unchanged, not even cut |
| MealPlan.GenerateNewMealPlan | src/app/actions/meal-plan.ts:73-110 | success exactly when the write and the refresh go through, with the rotated-in plan as data; the generate error otherwise; a write that goes through stores the rotated history even when the refresh then fails; a failed write changes nothing |
| MealPlan.ClearHistory | src/app/actions/meal-plan.ts:115-131 | success without data exactly when the write and refresh go through; the clear error otherwise; a write that goes through stores the empty history |
| MealPlan.RotateBounded | src/app/actions/meal-plan.ts:80-90 | rotating a current week in establishes the bound of 4 previous weeks; rotation keeps it; without a current week boundedness is unchanged |
| MealPlan.ActionsKeepBound | src/app/actions/meal-plan.ts:73-131 | generating keeps a bounded store bounded, and clearing leaves a bounded store |
| MealPlan.RotateTwice | src/app/actions/meal-plan.ts:80-94 | after two rotations the second plan is current and the first plan is the newest previous week, ahead of what the first rotation left |
| MealPlan.SecondPlanKeepsFirst | src/app/actions/meal-plan.ts:77-97 | two generations whose writes go through leave the second plan current and the first at `previousWeeks[0]` |
| MealPlan.RotateKeepsNewest | src/app/actions/meal-plan.ts:80-94 | one rotation turns "the newest earlier plans, newest first" into the same statement with one more plan |
| MealPlan.RotateAllKeepsNewest | src/app/actions/meal-plan.ts:80-94 | rotating any non-empty list of plans into the empty history makes the last plan current and the previous weeks the newest four plans before it, newest first |
| MealPlan.GenerationsRotateAll | src/app/actions/meal-plan.ts:73-110 | any run of `generateNewMealPlan` calls leaves the history of rotating in, in order, every plan whose write went through; calls whose write failed leave no trace, whatever their refresh did |
| MealPlan.RunKeepsNewest | src/app/actions/meal-plan.ts:73-110 | from an empty or unreadable file, after any run of `generateNewMealPlan` calls, the current week is the last plan written and the previous weeks are the newest four plans written before it, newest first |

## Left out

- File system and framework: `ensureDataDir`, `fs.readFile`, `fs.writeFile`, JSON and `revalidatePath` are not modelled. The file is a `Store`, either a history or unreadable. The outcomes of the write and the refresh are boolean inputs. Since a failed write is not modelled as partial, a torn write does not occur in the model.
- A history file that parses as JSON but does not have the shape of a history is not modelled. The source casts whatever it parses.
- Ids from `nanoid(10)` and timestamps from `new Date().toISOString()` are inputs. Nothing is assumed about them.
- The distribution of `Math.random` is not modelled. The properties hold for every sequence of random numbers in [0, 1), and for every legal sequence of swap positions.
- The range of a JavaScript time value, 10^8 days either side of 1970-01-01, is not modelled: day numbers are unbounded integers. Every day the generator is defined on (years 101 to 9998) lies well inside that range.
- Time of day and time zones are not modelled. The source computes the Monday in local time but writes it with `toISOString`, in UTC, so away from UTC `startDate` can be a day off. The model takes every date as a UTC day.
- Generator.GenerateWeeklyMealPlan: only days whose calendar year is in 101..9998 (`DatableDay`, day numbers from 0101-01-01 through 9998-12-31) are covered. Above that range `toISOString` writes a six-digit signed year, which the model does not render. Below it `Date.UTC` inside `getWeekNumber` reads the years 0 to 99 as 1900 to 1999, so the plan's week number can differ from the ISO week of the day.
- Calendar.GetWeekNumber: computes the `Date.UTC` reading of the years 0 to 99 as 1900 to 1999, but states the result only in two cases: the ISO week of the day when neither it nor its Thursday is in the years 0 to 99, and the ISO week of the same date in 1900 + year for the years 1 to 99. The remaining days, those of year 0 and the few within three days of its start or of 0100-01-01, get no stated value. For 0100-01-01, whose Thursday lies in year 99, the source's arithmetic counts from 1999-01-01 and yields a large negative week number. Day numbers are also unbounded, while a JavaScript time value reaches only from -271821-04-20 to 275760-09-13: where January 1 of the Thursday's year lies before that range, as for every day of year -271821, `Date.UTC` gives NaN and so does the source's week number, while the model states the ISO week.
- Calendar.WeekNumberSameAllWeek: holds only away from the years 0 to 99. There the `Date.UTC` reading can put the days of one week into different years.
- Selection.RandomItemsForWeek: the list must be non-empty. On an empty list the source fills the week with `undefined`, which the datatypes cannot hold. Every configured list is non-empty (`FoodData.FoodCatalogueAmple`).
- Generator.FormatWeekRange: defined only for strings that parse as real calendar dates. For other strings the source shows "undefined NaN" parts, or rolls an out-of-range day into the next month. Generated plans always carry parseable dates (`Generator.PlanWeekDates`).
- The generator's catalogue is a parameter. `FoodData.FoodCatalogue` is the configured one, and the lemmas about it say what the configured lists guarantee.
- The `catch` branch of `getMealPlanHistory` is left out. `readHistory` turns every failure into the empty history, so that branch is never taken. `MealPlan.LoadError` records its message.
- Shuffling a copy: sequences are values, so the caller's list cannot change. The model has nothing to state about it.
- Concurrent requests: races between simultaneous load-modify-write actions are not modelled.
- React components and the variation sidebar: their variation selection has no counterpart in the actions or types.

=== FILE: calendar.dfy ===
/** Calendar arithmetic of the generator, on the proleptic Gregorian calendar.

    A moment is reduced to its calendar day, numbered from 1970-01-01 (day 0,
    a Thursday), as a JavaScript time value divided by 86 400 000 ms would be.
    Day numbers are unbounded: the limit of a time value to 10^8 days either
    side of 1970-01-01 is not modelled.
    Times of day and time zones are not modelled. A `CivilDate` holds the
    fields `getFullYear()`, `getMonth() + 1` and `getDate()`. */
module Calendar {

  /** Days since 1970-01-01. */
  type Day = int

  /** A year, a month 1..12 and a day of the month. */
  datatype CivilDate = CivilDate(year: int, month: int, day: int)

  predicate IsLeapYear(y: int)
  {
    y % 4 == 0 && (y % 100 != 0 || y % 400 == 0)
  }

  function YearLength(y: int): (n: int)
    ensures n == 365 || n == 366
  {
    if IsLeapYear(y) then 366 else 365
  }

  function DaysInMonth(y: int, m: int): (n: int)
    requires 1 <= m <= 12
    ensures 28 <= n <= 31
  {
    if m == 2 then (if IsLeapYear(y) then 29 else 28)
    else if m == 4 || m == 6 || m == 9 || m == 11 then 30
    else 31
  }

  /** Days of year `y` before the first of month `m`; month 13 stands for the
      next January. */
  function DaysBeforeMonth(y: int, m: int): (n: int)
    requires 1 <= m <= 13
    ensures m == 1 ==> n == 0
    ensures m == 13 ==> n == YearLength(y)
  {
    var leap := if m > 2 && IsLeapYear(y) then 1 else 0;
    [0, 31, 59, 90, 120, 151, 181, 212, 243, 273, 304, 334, 365][m - 1] + leap
  }

  /** The next month starts one month length later. */
  lemma DaysBeforeMonthStep(y: int, m: int)
    requires 1 <= m <= 12
    ensures DaysBeforeMonth(y, m + 1) == DaysBeforeMonth(y, m) + DaysInMonth(y, m)
  {
  }

  predicate ValidDate(c: CivilDate)
  {
    1 <= c.month <= 12 && 1 <= c.day <= DaysInMonth(c.year, c.month)
  }

  /** Leap years in 1 .. y-1 (for y >= 1; for other years a counting function
      with the same steps). */
  function LeapYearsBefore(y: int): int
  {
    (y - 1) / 4 - (y - 1) / 100 + (y - 1) / 400
  }

  /** The day number of January 1 of year `y`. */
  function DaysBeforeYear(y: int): Day
  {
    365 * (y - 1970) + LeapYearsBefore(y) - LeapYearsBefore(1970)
  }

  /** The day number of the calendar fields as they stand (MakeDay, as
      `setDate` uses it). A day outside the month rolls over into the
      neighbouring months. It agrees with `Date.UTC(year, month - 1, day)`
      only outside the years 0 to 99; `DateUtc` is `Date.UTC` itself. */
  function ToDays(c: CivilDate): Day
    requires 1 <= c.month <= 12
  {
    DaysBeforeYear(c.year) + DaysBeforeMonth(c.year, c.month) + c.day - 1
  }

  // ---------------------------------------------------------------------------
  // Arithmetic facts
  // ---------------------------------------------------------------------------

  /** Euclidean quotient and remainder are the unique such pair. */
  lemma DivModUnique(x: int, d: int, q: int, r: int)
    requires 0 < d && 0 <= r < d && x == d * q + r
    ensures x / d == q && x % d == r
  {
    var k := x / d - q;
    assert d * k == r - x % d;
    assert k >= 1 ==> d * k >= d;
    assert k <= -1 ==> d * k <= -d;
  }

  /** `y / d` steps up by one exactly at the multiples of `d`. */
  lemma FloorStep(y: int, d: int)
    requires 0 < d
    ensures y / d - (y - 1) / d == (if y % d == 0 then 1 else 0)
  {
    var q, r := (y - 1) / d, (y - 1) % d;
    if r + 1 < d {
      DivModUnique(y, d, q, r + 1);
    } else {
      DivModUnique(y, d, q + 1, 0);
    }
  }

  /** January 1 of the next year comes one year length later. */
  lemma DaysBeforeYearStep(y: int)
    ensures DaysBeforeYear(y + 1) == DaysBeforeYear(y) + YearLength(y)
  {
    FloorStep(y, 4);
    FloorStep(y, 100);
    FloorStep(y, 400);
  }

  /** January 1 moves forward with the year. */
  lemma {:induction false} DaysBeforeYearMonotone(a: int, b: int)
    requires a <= b
    ensures DaysBeforeYear(a) <= DaysBeforeYear(b)
    decreases b - a
  {
    if a < b {
      DaysBeforeYearStep(b - 1);
      DaysBeforeYearMonotone(a, b - 1);
    }
  }

  // ---------------------------------------------------------------------------
  // From a day number back to the calendar fields
  // ---------------------------------------------------------------------------

  /** Search for the year containing day `n`, starting from year `y`. */
  function FindYear(n: Day, y: int): (r: int)
    ensures DaysBeforeYear(r) <= n < DaysBeforeYear(r + 1)
    decreases if n < DaysBeforeYear(y) then 366 + DaysBeforeYear(y) - n else n - DaysBeforeYear(y)
  {
    DaysBeforeYearStep(y);
    DaysBeforeYearStep(y - 1);
    if n < DaysBeforeYear(y) then FindYear(n, y - 1)
    else if n >= DaysBeforeYear(y + 1) then FindYear(n, y + 1)
    else y
  }

  /** The calendar year containing day `n` (`getFullYear`). */
  function YearOf(n: Day): (y: int)
    ensures DaysBeforeYear(y) <= n < DaysBeforeYear(y) + YearLength(y)
  {
    var y := FindYear(n, 1970);
    DaysBeforeYearStep(y);
    y
  }

  /** Only one year contains a given day. */
  lemma YearOfUnique(n: Day, y: int)
    requires DaysBeforeYear(y) <= n < DaysBeforeYear(y) + YearLength(y)
    ensures YearOf(n) == y
  {
    var y' := YearOf(n);
    if y' < y {
      DaysBeforeYearStep(y');
      DaysBeforeYearMonotone(y' + 1, y);
      assert false;
    } else if y < y' {
      DaysBeforeYearStep(y);
      DaysBeforeYearMonotone(y + 1, y');
      assert false;
    }
  }

  /** Search for the month of year `y` containing day-of-year `doy` (0-based). */
  function FindMonth(y: int, doy: int, m: int): (r: int)
    requires 1 <= m <= 12
    requires DaysBeforeMonth(y, m) <= doy < YearLength(y)
    ensures m <= r <= 12
    ensures DaysBeforeMonth(y, r) <= doy < DaysBeforeMonth(y, r + 1)
    decreases 12 - m
  {
    if doy < DaysBeforeMonth(y, m + 1) then m else FindMonth(y, doy, m + 1)
  }

  /** Days of the month before month `b` start at or after the end of month `a < b`. */
  lemma DaysBeforeMonthMonotone(y: int, a: int, b: int)
    requires 1 <= a < b <= 13
    ensures DaysBeforeMonth(y, a + 1) <= DaysBeforeMonth(y, b)
  {
  }

  /** The calendar fields of day `n`: the inverse of `ToDays`. */
  function FromDays(n: Day): (c: CivilDate)
    ensures ValidDate(c)
    ensures ToDays(c) == n
  {
    var y := YearOf(n);
    var doy := n - DaysBeforeYear(y);
    var m := FindMonth(y, doy, 1);
    DaysBeforeMonthStep(y, m);
    CivilDate(y, m, doy - DaysBeforeMonth(y, m) + 1)
  }

  /** The month search finds the one month holding the day of the year. */
  lemma FindMonthUnique(y: int, doy: int, m: int)
    requires 1 <= m <= 12
    requires DaysBeforeMonth(y, m) <= doy < DaysBeforeMonth(y, m + 1)
    ensures FindMonth(y, doy, 1) == m
  {
    DaysBeforeMonthMonotone(y, m, 13);
    var r := FindMonth(y, doy, 1);
    if r < m {
      DaysBeforeMonthMonotone(y, r, m);
    } else if m < r {
      DaysBeforeMonthMonotone(y, m, r);
    }
  }

  /** The year found for the day number of a date is the date's year. */
  lemma YearOfDate(c: CivilDate)
    requires ValidDate(c)
    ensures YearOf(ToDays(c)) == c.year
  {
    DaysBeforeMonthStep(c.year, c.month);
    DaysBeforeMonthMonotone(c.year, c.month, 13);
    YearOfUnique(ToDays(c), c.year);
  }

  /** The month found for the day of the year of a date is the date's month. */
  lemma MonthOfDate(c: CivilDate)
    requires ValidDate(c)
    ensures FindMonth(c.year, ToDays(c) - DaysBeforeYear(c.year), 1) == c.month
  {
    var doy := DaysBeforeMonth(c.year, c.month) + c.day - 1;
    assert ToDays(c) - DaysBeforeYear(c.year) == doy;
    DaysBeforeMonthStep(c.year, c.month);
    FindMonthUnique(c.year, doy, c.month);
  }

  /** Every valid date survives the trip through its day number. */
  lemma FromDaysToDays(c: CivilDate)
    requires ValidDate(c)
    ensures FromDays(ToDays(c)) == c
  {
    YearOfDate(c);
    MonthOfDate(c);
  }

  /** Two valid dates with the same day number are the same date. */
  lemma ToDaysInjective(a: CivilDate, b: CivilDate)
    requires ValidDate(a) && ValidDate(b)
    ensures ToDays(a) == ToDays(b) <==> a == b
  {
    if ToDays(a) == ToDays(b) {
      FromDaysToDays(a);
      FromDaysToDays(b);
    }
  }

  /** Days at most a week apart lie in the same or in adjacent years. */
  lemma NearbyDayYear(n: Day, m: Day)
    requires -7 <= m - n <= 7
    ensures FromDays(n).year - 1 <= FromDays(m).year <= FromDays(n).year + 1
  {
    var y, y' := YearOf(n), YearOf(m);
    DaysBeforeYearStep(y - 1);
    DaysBeforeYearStep(y + 1);
    if y' < y - 1 {
      DaysBeforeYearMonotone(y' + 1, y - 1);
    } else if y' > y + 1 {
      DaysBeforeYearMonotone(y + 2, y');
    }
  }

  /** The calendar fields `k <= 28` days after a date: the day of the month
      grows by `k` and, past the month's end, rolls over into the next month,
      and from December into January of the next year. */
  lemma DaysLater(c: CivilDate, k: int)
    requires ValidDate(c) && 0 <= k <= 28
    ensures FromDays(ToDays(c) + k) ==
      if c.day + k <= DaysInMonth(c.year, c.month) then CivilDate(c.year, c.month, c.day + k)
      else if c.month < 12 then CivilDate(c.year, c.month + 1, c.day + k - DaysInMonth(c.year, c.month))
      else CivilDate(c.year + 1, 1, c.day + k - 31)
  {
    if c.day + k <= DaysInMonth(c.year, c.month) {
      FromDaysToDays(CivilDate(c.year, c.month, c.day + k));
    } else if c.month < 12 {
      DaysLaterNextMonth(c, k);
    } else {
      DaysLaterNextYear(c, k);
    }
  }

  /** Day `d + DaysInMonth(y, m)` of month `m` is day `d` of the next month. */
  lemma NextMonthRollover(y: int, m: int, d: int)
    requires 1 <= m < 12
    ensures ToDays(CivilDate(y, m + 1, d)) == ToDays(CivilDate(y, m, d + DaysInMonth(y, m)))
  {
    DaysBeforeMonthStep(y, m);
  }

  lemma DaysLaterNextMonth(c: CivilDate, k: int)
    requires ValidDate(c) && 0 <= k <= 28 && c.month < 12
    requires c.day + k > DaysInMonth(c.year, c.month)
    ensures FromDays(ToDays(c) + k) == CivilDate(c.year, c.month + 1, c.day + k - DaysInMonth(c.year, c.month))
  {
    var dim := DaysInMonth(c.year, c.month);
    var later := CivilDate(c.year, c.month + 1, c.day + k - dim);
    NextMonthRollover(c.year, c.month, c.day + k - dim);
    assert DaysInMonth(c.year, c.month + 1) >= 28;
    FromDaysToDays(later);
  }

  lemma DaysLaterNextYear(c: CivilDate, k: int)
    requires ValidDate(c) && 0 <= k <= 28 && c.month == 12
    requires c.day + k > 31
    ensures FromDays(ToDays(c) + k) == CivilDate(c.year + 1, 1, c.day + k - 31)
  {
    var later := CivilDate(c.year + 1, 1, c.day + k - 31);
    DaysBeforeMonthStep(c.year, 12);
    DaysBeforeYearStep(c.year);
    assert ValidDate(later);
    assert ToDays(later) == ToDays(c) + k;
    FromDaysToDays(later);
  }

  // ---------------------------------------------------------------------------
  // The generator's date operations
  // ---------------------------------------------------------------------------

  /** `getDay()`: 0 for Sunday, 1 for Monday, ..., 6 for Saturday. */
  function Weekday(n: Day): (w: int)
    ensures 0 <= w < 7
  {
    (n + 4) % 7
  }

  /** Moving `k` days moves the weekday by `k` modulo 7. */
  lemma WeekdayAdd(n: Day, k: int)
    ensures Weekday(n + k) == (Weekday(n) + k) % 7
  {
    var q, r := (n + 4) / 7, (n + 4) % 7;
    var q', r' := (r + k) / 7, (r + k) % 7;
    DivModUnique(n + k + 4, 7, q + q', r');
  }

  /** `setDate(date)`: keep the year and month of `n`, set the day of the
      month; out-of-range values roll over. Moving to a day of the month is
      moving by the difference of the two days. */
  function SetDate(n: Day, date: int): (r: Day)
    ensures r == n + (date - FromDays(n).day)
  {
    var c := FromDays(n);
    ToDays(CivilDate(c.year, c.month, date))
  }

  /** `d.setDate(d.getDate() + k)`: `k` days later, with the weekday moved
      on by `k`. The day arithmetic is that of `setDate`, as
      `AddDaysIsSetDate` shows. */
  function AddDays(n: Day, k: int): (r: Day)
    ensures Weekday(r) == (Weekday(n) + k) % 7
  {
    WeekdayAdd(n, k);
    n + k
  }

  /** Adding days is setting the day of the month `k` further on. */
  lemma AddDaysIsSetDate(n: Day, k: int)
    ensures AddDays(n, k) == SetDate(n, FromDays(n).day + k)
    ensures AddDays(n, k) - n == k
  {
  }

  /** The weekday shift `getMondayOfWeek` applies: a Sunday goes back six
      days, any other day back to day 1 of its week. */
  function MondayShift(n: Day): int
  {
    (if Weekday(n) == 0 then -6 else 1) - Weekday(n)
  }

  /** The Monday on or before `n`. */
  function GetMondayOfWeek(n: Day): (monday: Day)
    ensures Weekday(monday) == 1
    ensures n - 6 <= monday <= n
    ensures Weekday(n) == 0 ==> monday == n - 6
    ensures Weekday(n) != 0 ==> monday == n - (Weekday(n) - 1)
  {
    AddDays(n, MondayShift(n))
  }

  /** `getMondayOfWeek` sets the day of the month to `getDate() - day + diff`. */
  lemma MondayIsSetDate(n: Day)
    ensures GetMondayOfWeek(n) == SetDate(n, FromDays(n).day + MondayShift(n))
  {
    AddDaysIsSetDate(n, MondayShift(n));
  }

  /** `Math.ceil(x / k)` for an integer `x`. */
  function CeilDiv(x: int, k: int): (r: int)
    requires 0 < k
    ensures k * (r - 1) < x <= k * r
  {
    var q := (x + k - 1) / k;
    assert k * q <= x + k - 1 < k * q + k;
    q
  }

  /** The weekday shift `getWeekNumber` applies to reach Thursday, with
      Sunday counted as day 7. */
  function ThursdayShift(n: Day): int
  {
    4 - (if Weekday(n) == 0 then 7 else Weekday(n))
  }

  /** The Thursday of the Monday-to-Sunday week of `n`. */
  function ThursdayOf(n: Day): (t: Day)
    ensures Weekday(t) == 4
    ensures t == GetMondayOfWeek(n) + 3
  {
    AddDays(n, ThursdayShift(n))
  }

  /** `getWeekNumber` finds the Thursday by setting the day of the month to
      `getDate() + 4 - dayNum`. */
  lemma ThursdayIsSetDate(n: Day)
    ensures ThursdayOf(n) == SetDate(n, FromDays(n).day + ThursdayShift(n))
  {
    AddDaysIsSetDate(n, ThursdayShift(n));
  }

  /** The week count of `getWeekNumber` from the day `d`: the day of year of
      the week's Thursday, divided by 7 and rounded up, with the Thursday's
      January 1 taken as it is, that is without the `Date.UTC` reading of the
      years 0 to 99. */
  function UtcWeekNumber(d: Day): (week: int)
    ensures 1 <= week <= 53
  {
    var thursday := ThursdayOf(d);
    var yearStart := ToDays(CivilDate(FromDays(thursday).year, 1, 1));
    var week := CeilDiv(thursday - yearStart + 1, 7);
    assert 7 * (week - 1) < 366;
    week
  }

  /** `Date.UTC(year, month - 1, day)` in days. As `Date.UTC` does (section
      21.4.3.4 of ECMA-262, through MakeFullYear), a year from 0 to 99
      stands for 1900 + year. Year 0 is left out of the second ensures:
      29 February of year 0 rolls over to 1 March 1900. */
  function DateUtc(c: CivilDate): (n: Day)
    requires 1 <= c.month <= 12
    ensures ValidDate(c) && !(0 <= c.year <= 99) ==> FromDays(n) == c
    ensures ValidDate(c) && 1 <= c.year <= 99 ==> FromDays(n) == CivilDate(1900 + c.year, c.month, c.day)
  {
    if 0 <= c.year <= 99 then
      var shifted := CivilDate(1900 + c.year, c.month, c.day);
      if ValidDate(c) && 1 <= c.year then
        TwoDigitYearShift(c);
        FromDaysToDays(shifted);
        ToDays(shifted)
      else
        ToDays(shifted)
    else
      if ValidDate(c) then
        FromDaysToDays(c);
        ToDays(c)
      else
        ToDays(c)
  }

  /** Whether neither day `n` nor the Thursday of its week lies in the years
      0 to 99, which `Date.UTC` would read as 1900 to 1999. */
  predicate FullYearWeek(n: Day)
  {
    n < DaysBeforeYear(0) - 3 || DaysBeforeYear(100) + 3 <= n
  }

  /** A day outside the years 0 to 99 is rebuilt by `Date.UTC` as itself,
      and so is January 1 of its year. */
  lemma RebuildFullYear(n: Day)
    requires n < DaysBeforeYear(0) || DaysBeforeYear(100) <= n
    ensures !(0 <= FromDays(n).year <= 99)
    ensures DateUtc(FromDays(n)) == n
    ensures DateUtc(CivilDate(FromDays(n).year, 1, 1)) == ToDays(CivilDate(FromDays(n).year, 1, 1))
  {
    var y := FromDays(n).year;
    if 0 <= y <= 99 {
      if n < DaysBeforeYear(0) {
        DaysBeforeYearMonotone(0, y);
        assert false;
      } else {
        DaysBeforeYearMonotone(y + 1, 100);
        assert false;
      }
    }
  }

  /** Moving a date of the years 1 to 99 to 1900 + year keeps it valid,
      because both years have the same leap rule, and puts it and its week
      outside the years 0 to 99. */
  lemma TwoDigitYearShift(c: CivilDate)
    requires ValidDate(c) && 1 <= c.year <= 99
    ensures ValidDate(CivilDate(1900 + c.year, c.month, c.day))
    ensures FullYearWeek(ToDays(CivilDate(1900 + c.year, c.month, c.day)))
  {
    assert (1900 + c.year) % 4 == c.year % 4;
    assert IsLeapYear(1900 + c.year) == IsLeapYear(c.year);
    DaysBeforeYearMonotone(101, 1900 + c.year);
    assert DaysBeforeYear(101) >= DaysBeforeYear(100) + 3;
  }

  /** A date in the years 1 to 99 is rebuilt by `Date.UTC` as the same
      month and day in 1900 + year. */
  lemma RebuildTwoDigitYear(n: Day)
    requires 1 <= FromDays(n).year <= 99
    ensures ValidDate(CivilDate(1900 + FromDays(n).year, FromDays(n).month, FromDays(n).day))
    ensures DateUtc(FromDays(n)) == ToDays(CivilDate(1900 + FromDays(n).year, FromDays(n).month, FromDays(n).day))
    ensures FullYearWeek(DateUtc(FromDays(n)))
  {
    TwoDigitYearShift(FromDays(n));
  }

  /** How `Date.UTC` rebuilds day `n` from its calendar fields: as itself
      away from the years 0 to 99, and as the same date in 1900 + year for
      the years 1 to 99. */
  lemma RebuildDay(n: Day)
    ensures FullYearWeek(n) ==> DateUtc(FromDays(n)) == n
    ensures 1 <= FromDays(n).year <= 99 ==>
      DateUtc(FromDays(n)) == ToDays(CivilDate(1900 + FromDays(n).year, FromDays(n).month, FromDays(n).day))
      && FullYearWeek(DateUtc(FromDays(n)))
  {
    if FullYearWeek(n) {
      RebuildFullYear(n);
    } else if 1 <= FromDays(n).year <= 99 {
      RebuildTwoDigitYear(n);
    }
  }

  /** Away from the years 0 to 99, `Date.UTC` rebuilds January 1 of the
      year of the week's Thursday as itself. */
  lemma RebuildYearStart(d: Day)
    ensures FullYearWeek(d) ==>
      DateUtc(CivilDate(FromDays(ThursdayOf(d)).year, 1, 1)) == ToDays(CivilDate(FromDays(ThursdayOf(d)).year, 1, 1))
  {
    if FullYearWeek(d) {
      RebuildFullYear(ThursdayOf(d));
    }
  }

  /** `getWeekNumber`: the day is rebuilt with `Date.UTC` from its calendar
      fields, and the week is counted from the Thursday of its week and
      the `Date.UTC` January 1 of that Thursday's year. Away from the years 0
      to 99 this is the ISO 8601 week number of the day; a date in the years
      1 to 99 gets the ISO week number of the same date in 1900 + year. */
  function GetWeekNumber(n: Day): (week: int)
    ensures FullYearWeek(n) ==> week == IsoWeek(n) && 1 <= week <= 53
    ensures 1 <= FromDays(n).year <= 99 ==>
      week == IsoWeek(ToDays(CivilDate(1900 + FromDays(n).year, FromDays(n).month, FromDays(n).day))) && 1 <= week <= 53
  {
    var d := DateUtc(FromDays(n));
    var thursday := ThursdayOf(d);
    var yearStart := DateUtc(CivilDate(FromDays(thursday).year, 1, 1));
    RebuildDay(n);
    RebuildYearStart(d);
    WeekNumberIsIso(d);
    CeilDiv(thursday - yearStart + 1, 7)
  }

  // ---------------------------------------------------------------------------
  // ISO 8601 week numbering
  // ---------------------------------------------------------------------------

  /** The ISO 8601 week-numbering year of `n`: the calendar year of its
      week's Thursday. */
  function IsoWeekYear(n: Day): int
  {
    FromDays(ThursdayOf(n)).year
  }

  /** The first Thursday of year `y`. */
  function FirstThursday(y: int): (t: Day)
    ensures Weekday(t) == 4
    ensures DaysBeforeYear(y) <= t < DaysBeforeYear(y) + 7
  {
    var jan1 := DaysBeforeYear(y);
    var w := Weekday(jan1);
    var offset := if w <= 4 then 4 - w else 11 - w;
    WeekdayAdd(jan1, offset);
    jan1 + offset
  }

  /** The ISO 8601 week number by its definition (section 2.2.10 and section
      4.1.4 of ISO 8601:2004): week 1 of a year is the week holding its first
      Thursday, and weeks count on from there, Monday to Sunday. */
  function IsoWeek(n: Day): int
  {
    (ThursdayOf(n) - FirstThursday(IsoWeekYear(n))) / 7 + 1
  }

  /** Two days with the same weekday lie a whole number of weeks apart. */
  lemma SameWeekdayApart(a: Day, b: Day)
    requires Weekday(a) == Weekday(b)
    ensures (b - a) % 7 == 0
  {
  }

  /** `getWeekNumber` computes the ISO 8601 week number. */
  lemma WeekNumberIsIso(n: Day)
    ensures UtcWeekNumber(n) == IsoWeek(n)
    ensures UtcWeekNumber(n) == (ThursdayOf(n) - FirstThursday(IsoWeekYear(n))) / 7 + 1
  {
    var t := ThursdayOf(n);
    var y := IsoWeekYear(n);
    var jan1 := DaysBeforeYear(y);
    var ft := FirstThursday(y);
    assert ToDays(CivilDate(y, 1, 1)) == jan1;
    assert jan1 <= t;
    SameWeekdayApart(ft, t);
    var k := (t - ft) / 7;
    assert t - ft == 7 * k;
    assert k >= 0;
    var doy := t - jan1 + 1;
    assert doy == 7 * k + (ft - jan1) + 1;
    var w := UtcWeekNumber(n);
    assert 7 * (w - 1) < doy <= 7 * w;
    assert w == k + 1;
  }

  /** A day and the Monday of its week share the Monday. */
  lemma MondayOfWeekDay(n: Day, k: int)
    requires 0 <= k < 7
    ensures GetMondayOfWeek(GetMondayOfWeek(n) + k) == GetMondayOfWeek(n)
  {
    var m := GetMondayOfWeek(n);
    WeekdayAdd(m, k);
    assert Weekday(m + k) == (if k == 6 then 0 else k + 1);
  }

  /** Away from the years 0 to 99, all seven days from a Monday to the
      following Sunday get the same week number, because they share their
      ISO week. */
  lemma WeekNumberSameAllWeek(n: Day, d: Day)
    requires GetMondayOfWeek(n) <= d <= GetMondayOfWeek(n) + 6
    requires FullYearWeek(n) && FullYearWeek(d)
    ensures GetWeekNumber(d) == GetWeekNumber(n)
  {
    IsoWeekSameAllWeek(n, d);
  }

  /** All seven days from a Monday to the following Sunday have the same
      ISO week number, because they share their Thursday. */
  lemma IsoWeekSameAllWeek(n: Day, d: Day)
    requires GetMondayOfWeek(n) <= d <= GetMondayOfWeek(n) + 6
    ensures IsoWeek(d) == IsoWeek(n)
  {
    var m := GetMondayOfWeek(n);
    MondayOfWeekDay(n, d - m);
    assert GetMondayOfWeek(d) == m;
    assert ThursdayOf(d) == ThursdayOf(n);
  }

  /** 30 December 2024 is a Monday. */
  lemma December30th2024IsMonday()
    ensures ValidDate(CivilDate(2024, 12, 30))
    ensures Weekday(ToDays(CivilDate(2024, 12, 30))) == 1
  {
    DivModUnique(20091, 7, 2870, 1);
    DivModUnique(1969, 4, 492, 1);
    DivModUnique(1969, 100, 19, 69);
    DivModUnique(1969, 400, 4, 369);
    DivModUnique(2023, 4, 505, 3);
    DivModUnique(2023, 100, 20, 23);
    DivModUnique(2023, 400, 5, 23);
    assert DaysBeforeYear(2024) == 19723;
    DivModUnique(2024, 4, 506, 0);
    DivModUnique(2024, 100, 20, 24);
    assert IsLeapYear(2024);
    assert DaysBeforeMonth(2024, 12) == 335;
  }

  /** A Monday on 29, 30 or 31 December starts week 1 of the next ISO year,
      although its calendar year is still the earlier one. */
  lemma LateDecemberMondayIsWeekOne(c: CivilDate)
    requires ValidDate(c) && c.month == 12 && c.day >= 29
    requires Weekday(ToDays(c)) == 1
    ensures IsoWeek(ToDays(c)) == 1
    ensures IsoWeekYear(ToDays(c)) == c.year + 1
  {
    var n := ToDays(c);
    var y := c.year;
    DaysBeforeMonthStep(y, 12);
    DaysBeforeYearStep(y);
    assert DaysBeforeYear(y + 1) - 3 <= n < DaysBeforeYear(y + 1);
    var t := ThursdayOf(n);
    assert t == n + 3;
    DaysBeforeYearStep(y + 1);
    YearOfUnique(t, y + 1);
    assert ToDays(CivilDate(y + 1, 1, 1)) == DaysBeforeYear(y + 1);
    var w := UtcWeekNumber(n);
    assert 7 * (w - 1) < t - DaysBeforeYear(y + 1) + 1 <= 3;
    WeekNumberIsIso(n);
  }
}

=== FILE: food_data.dfy ===
/** The static catalogue: the four food categories, the canonical order of the
    days and the history bound. */
module FoodData {
  import opened Types
  import opened Seqs

  const BreakfastBreads: seq<BreadItem> := [
    BreadItem("bread-1", "Pan con Palta", Some("🥑"), "Palta"),
    BreadItem("bread-2", "Pan con Huevo", Some("🍳"), "Huevo Revuelto"),
    BreadItem("bread-3", "Pan con Jamón y Queso", Some("🥪"), "Jamón y Queso"),
    BreadItem("bread-4", "Pan con Mantequilla", Some("🧈"), "Mantequilla"),
    BreadItem("bread-5", "Pan con Mermelada", Some("🍓"), "Mermelada"),
    BreadItem("bread-6", "Pan con Aceituna", Some("🫒"), "Aceituna"),
    BreadItem("bread-7", "Pan con Pollo", Some("🍗"), "Pollo Deshilachado")
  ]

  const BreakfastFruits: seq<FoodItem> := [
    FoodItem("fruit-1", "Papaya picada", Some("🍈")),
    FoodItem("fruit-2", "Plátano", Some("🍌")),
    FoodItem("fruit-3", "Manzana", Some("🍎")),
    FoodItem("fruit-4", "Sandía", Some("🍉")),
    FoodItem("fruit-5", "Piña", Some("🍍")),
    FoodItem("fruit-6", "Uvas", Some("🍇")),
    FoodItem("fruit-7", "Mandarina", Some("🍊")),
    FoodItem("fruit-8", "Fresas", Some("🍓"))
  ]

  /** "Café" is listed three times, under three ids, to make it more likely. */
  const BreakfastDrinks: seq<FoodItem> := [
    FoodItem("drink-1", "Café", Some("☕")),
    FoodItem("drink-1b", "Café", Some("☕")),
    FoodItem("drink-1c", "Café", Some("☕")),
    FoodItem("drink-2", "Jugo de Naranja", Some("🍊")),
    FoodItem("drink-3", "Avena", Some("🥣")),
    FoodItem("drink-4", "Leche", Some("🥛")),
    FoodItem("drink-5", "Café con Leche", Some("☕")),
    FoodItem("drink-6", "Té", Some("🍵")),
    FoodItem("drink-7", "Jugo de Piña", Some("🍍")),
    FoodItem("drink-8", "Smoothie de Frutas", Some("🥤")),
    FoodItem("drink-9", "Chocolate Caliente", Some("🍫"))
  ]

  const Lunches: seq<FoodItem> := [
    FoodItem("lunch-1", "Lentejas", Some("🍲")),
    FoodItem("lunch-2", "Ají de Gallina", Some("🍛")),
    FoodItem("lunch-3", "Arroz con Pollo", Some("🍗")),
    FoodItem("lunch-4", "Ceviche", Some("🐟")),
    FoodItem("lunch-5", "Lomo Saltado", Some("🥩")),
    FoodItem("lunch-6", "Tallarines Verdes", Some("🍝")),
    FoodItem("lunch-7", "Seco de Res", Some("🥘")),
    FoodItem("lunch-8", "Causa Limeña", Some("🥔")),
    FoodItem("lunch-9", "Pollo a la Brasa", Some("🍗")),
    FoodItem("lunch-10", "Pescado Frito", Some("🐠")),
    FoodItem("lunch-11", "Estofado de Pollo", Some("🍲")),
    FoodItem("lunch-12", "Tacu Tacu", Some("🍚")),
    FoodItem("lunch-13", "Milanesa con Puré", Some("🥩")),
    FoodItem("lunch-14", "Sopa de Pollo", Some("🍜"))
  ]

  const DaysOfWeek: seq<DayOfWeek> := [Lunes, Martes, Miercoles, Jueves, Viernes, Sabado, Domingo]

  const MaxHistoryWeeks: nat := 4

  /** The four lists the generator draws a week from. */
  datatype Catalogue = Catalogue(breads: seq<BreadItem>, fruits: seq<FoodItem>, drinks: seq<FoodItem>, lunches: seq<FoodItem>)

  /** The lists of this configuration. */
  const FoodCatalogue: Catalogue := Catalogue(BreakfastBreads, BreakfastFruits, BreakfastDrinks, Lunches)

  /** Every list has an item to draw. */
  predicate NonEmptyCatalogue(c: Catalogue)
  {
    |c.breads| > 0 && |c.fruits| > 0 && |c.drinks| > 0 && |c.lunches| > 0
  }

  /** Enough items for a week without repeats: ids are unique within each
      list, every list holds at least one item per day, and the breads hold
      exactly one per day. */
  predicate AmpleCatalogue(c: Catalogue)
  {
    && |c.breads| == |DaysOfWeek|
    && |c.fruits| >= |DaysOfWeek|
    && |c.drinks| >= |DaysOfWeek|
    && |c.lunches| >= |DaysOfWeek|
    && Distinct(BreadIds(c.breads))
    && Distinct(Ids(c.fruits))
    && Distinct(Ids(c.drinks))
    && Distinct(Ids(c.lunches))
  }

  /** The id of a food item. */
  function ItemId(item: FoodItem): string
  {
    item.id
  }

  /** The ids of a list of food items, in order. */
  function Ids(items: seq<FoodItem>): (ids: seq<string>)
    ensures |ids| == |items|
    ensures forall k :: 0 <= k < |items| ==> ids[k] == items[k].id
  {
    MapSeq(ItemId, items)
  }

  /** The id of a bread. */
  function BreadId(bread: BreadItem): string
  {
    bread.id
  }

  /** The ids of a list of breads, in order. */
  function BreadIds(breads: seq<BreadItem>): (ids: seq<string>)
    ensures |ids| == |breads|
    ensures forall k :: 0 <= k < |breads| ==> ids[k] == breads[k].id
  {
    MapSeq(BreadId, breads)
  }

  /** How many entries of `items` carry the display name `name`. */
  function CountName(items: seq<FoodItem>, name: string): (n: nat)
    ensures n <= |items|
    ensures n == 0 <==> forall k :: 0 <= k < |items| ==> items[k].name != name
  {
    if items == [] then 0
    else CountName(items[..|items| - 1], name) + (if items[|items| - 1].name == name then 1 else 0)
  }

  /** The position of a day in the canonical order. */
  function DayIndex(d: DayOfWeek): (k: nat)
    ensures k < |DaysOfWeek| && DaysOfWeek[k] == d
  {
    match d
    case Lunes => 0
    case Martes => 1
    case Miercoles => 2
    case Jueves => 3
    case Viernes => 4
    case Sabado => 5
    case Domingo => 6
  }

  /** The canonical day order: seven distinct days, Lunes to Domingo, and
      every day of the week occurs. */
  lemma DaysOfWeekCanonical()
    ensures |DaysOfWeek| == 7 && Distinct(DaysOfWeek)
    ensures DaysOfWeek[0] == Lunes && DaysOfWeek[6] == Domingo
    ensures forall d: DayOfWeek :: d in DaysOfWeek
  {
    forall d: DayOfWeek ensures d in DaysOfWeek {
      assert DaysOfWeek[DayIndex(d)] == d;
    }
  }

  /** Category sizes: 7 breads, 8 fruits, 11 drinks, 14 lunches; so every
      category is non-empty and holds at least a week's worth of items. */
  lemma CatalogueSizes()
    ensures |BreakfastBreads| == 7
    ensures |BreakfastFruits| == 8
    ensures |BreakfastDrinks| == 11
    ensures |Lunches| == 14
  {
  }

  /** Two strings that differ in length or in their last character differ. */
  predicate EndsApart(a: string, b: string)
  {
    |a| != |b| || (|a| > 0 && a[|a| - 1] != b[|b| - 1])
  }

  /** A list of ids whose entries pairwise end apart has no repeated id. */
  lemma DistinctIfEndsApart(ids: seq<string>)
    requires forall i, j :: 0 <= i < j < |ids| ==> EndsApart(ids[i], ids[j])
    ensures Distinct(ids)
  {
  }

  /** Bread ids are unique. */
  lemma BreadIdsDistinct()
    ensures Distinct(BreadIds(BreakfastBreads))
  {
    DistinctIfEndsApart(BreadIds(BreakfastBreads));
  }

  /** Fruit ids are unique. */
  lemma FruitIdsDistinct()
    ensures Distinct(Ids(BreakfastFruits))
  {
    DistinctIfEndsApart(Ids(BreakfastFruits));
  }

  /** Drink ids are unique. */
  lemma DrinkIdsDistinct()
    ensures Distinct(Ids(BreakfastDrinks))
  {
    var ids := Ids(BreakfastDrinks);
    var coffees, others := ids[..3], ids[3..];
    DistinctIfEndsApart(coffees);
    DistinctIfEndsApart(others);
    assert forall i, j :: 0 <= i < |coffees| && 0 <= j < |others| ==> EndsApart(coffees[i], others[j]);
    DistinctJoin(coffees, others);
    assert ids == coffees + others;
  }

  /** Lunch ids are unique. */
  lemma LunchIdsDistinct()
    ensures Distinct(Ids(Lunches))
  {
    var ids := Ids(Lunches);
    var short, long := ids[..9], ids[9..];
    assert forall i :: 0 <= i < |short| ==> |short[i]| == 7;
    assert forall j :: 0 <= j < |long| ==> |long[j]| == 8;
    DistinctIfEndsApart(short);
    DistinctIfEndsApart(long);
    DistinctJoin(short, long);
    assert ids == short + long;
  }

  /** Counting names distributes over concatenation. */
  lemma {:induction false} CountNameAppend(a: seq<FoodItem>, b: seq<FoodItem>, name: string)
    ensures CountName(a + b, name) == CountName(a, name) + CountName(b, name)
    decreases |b|
  {
    if b == [] {
      assert a + b == a;
    } else {
      var b' := b[..|b| - 1];
      assert (a + b)[..|a + b| - 1] == a + b';
      CountNameAppend(a, b', name);
    }
  }

  /** When every entry carries `name`, every entry is counted. */
  lemma {:induction false} CountNameAll(items: seq<FoodItem>, name: string)
    requires forall k :: 0 <= k < |items| ==> items[k].name == name
    ensures CountName(items, name) == |items|
  {
    if items != [] {
      CountNameAll(items[..|items| - 1], name);
    }
  }

  /** A prefix counts no more than the whole list. */
  lemma CountNamePrefix(items: seq<FoodItem>, k: nat, name: string)
    requires k <= |items|
    ensures CountName(items[..k], name) <= CountName(items, name)
  {
    assert items == items[..k] + items[k..];
    CountNameAppend(items[..k], items[k..], name);
  }

  /** When the `c` entries carrying `name` lead the list, every prefix of
      at least `c` entries holds all of them. */
  lemma CountNameLeading(items: seq<FoodItem>, c: nat, k: nat, name: string)
    requires c <= k <= |items| && CountName(items, name) == c
    requires forall i :: 0 <= i < c ==> items[i].name == name
    ensures CountName(items[..k], name) == c
  {
    assert items[..k] == items[..c] + items[c..k];
    CountNameAll(items[..c], name);
    CountNameAppend(items[..c], items[c..k], name);
    CountNamePrefix(items, k, name);
  }

  /** Reordering a list does not change how often a name occurs in it. */
  lemma {:induction false} CountNamePermutation(a: seq<FoodItem>, b: seq<FoodItem>, name: string)
    requires multiset(a) == multiset(b)
    ensures CountName(a, name) == CountName(b, name)
    decreases |a|
  {
    if a == [] {
      assert |b| == |multiset(b)| == 0;
    } else {
      var x, a' := a[|a| - 1], a[..|a| - 1];
      assert a == a' + [x];
      assert x in multiset(b);
      var j :| 0 <= j < |b| && b[j] == x;
      var before, after := b[..j], b[j + 1..];
      assert b == before + [x] + after;
      var rest := multiset(before) + multiset(after);
      assert multiset(a') + multiset{x} == rest + multiset{x};
      assert multiset(a') + multiset{x} - multiset{x} == multiset(a');
      assert rest + multiset{x} - multiset{x} == rest;
      assert multiset(a') == multiset(before + after);
      CountNamePermutation(a', before + after, name);
      CountNameAppend(before, [x], name);
      CountNameAppend(before + [x], after, name);
      CountNameAppend(before, after, name);
      CountNameAppend(a', [x], name);
    }
  }

  /** "Café" is the display name of exactly three drinks, the first three,
      so a week can serve it more than once although no drink id repeats. */
  lemma CafeListedThrice()
    ensures CountName(BreakfastDrinks, "Café") == 3
    ensures forall k :: 0 <= k < 3 ==> BreakfastDrinks[k].name == "Café"
  {
    var d := BreakfastDrinks;
    var coffees, others := d[..3], d[3..];
    assert d == coffees + others;
    CountNameAppend(coffees, others, "Café");
    CountNameAll(coffees, "Café");
    assert CountName(others, "Café") == 0;
  }

  /** The configured lists are non-empty and ample: 7 breads for 7 days,
      more fruits, drinks and lunches than days, and no id repeated within a
      list. */
  lemma FoodCatalogueAmple()
    ensures NonEmptyCatalogue(FoodCatalogue) && AmpleCatalogue(FoodCatalogue)
  {
    CatalogueSizes();
    BreadIdsDistinct();
    FruitIdsDistinct();
    DrinkIdsDistinct();
    LunchIdsDistinct();
  }
}

=== FILE: generator.dfy ===
/** Plan generation: a week of meals drawn from the catalogue, the dates of
    the week it belongs to, variations of an existing plan, and the display
    of a plan's date range. */
module Generator {
  import opened Types
  import opened Seqs
  import opened FoodData
  import opened Selection
  import opened Calendar
  import opened Text

  /** Items drawn per category: one per day of the week. */
  const PlanDays: nat := 7

  /** The random draws one plan consumes: a Fisher–Yates draw sequence for
      each category, in the order the categories are shuffled. */
  datatype WeekDraws = WeekDraws(breads: seq<nat>, fruits: seq<nat>, drinks: seq<nat>, lunches: seq<nat>)

  predicate ValidWeekDraws(catalogue: Catalogue, draws: WeekDraws)
  {
    && ValidDraws(|catalogue.breads|, draws.breads)
    && ValidDraws(|catalogue.fruits|, draws.fruits)
    && ValidDraws(|catalogue.drinks|, draws.drinks)
    && ValidDraws(|catalogue.lunches|, draws.lunches)
  }

  function MealBread(meal: DayMeal): BreadItem
  {
    meal.breakfast.bread
  }

  function MealFruit(meal: DayMeal): FoodItem
  {
    meal.breakfast.fruit
  }

  function MealDrink(meal: DayMeal): FoodItem
  {
    meal.breakfast.drink
  }

  function MealLunch(meal: DayMeal): FoodItem
  {
    meal.lunch
  }

  /** A week of meals drawn from `catalogue`: the seven days in the canonical
      order, every item taken from its list. */
  predicate WellFormedMeals(catalogue: Catalogue, meals: seq<DayMeal>)
  {
    && |meals| == |DaysOfWeek|
    && (forall k :: 0 <= k < |meals| ==> meals[k].day == DaysOfWeek[k])
    && (forall k :: 0 <= k < |meals| ==> meals[k].breakfast.bread in catalogue.breads)
    && (forall k :: 0 <= k < |meals| ==> meals[k].breakfast.fruit in catalogue.fruits)
    && (forall k :: 0 <= k < |meals| ==> meals[k].breakfast.drink in catalogue.drinks)
    && (forall k :: 0 <= k < |meals| ==> meals[k].lunch in catalogue.lunches)
  }

  /** A week without repetition: every bread of the catalogue exactly once,
      and no bread, fruit, drink or lunch id served twice. */
  predicate RepeatFree(catalogue: Catalogue, meals: seq<DayMeal>)
  {
    && multiset(MapSeq(MealBread, meals)) == multiset(catalogue.breads)
    && Distinct(BreadIds(MapSeq(MealBread, meals)))
    && Distinct(Ids(MapSeq(MealFruit, meals)))
    && Distinct(Ids(MapSeq(MealDrink, meals)))
    && Distinct(Ids(MapSeq(MealLunch, meals)))
  }

  /** `DAYS_OF_WEEK.map((day, index) => ...)`: the meals of the week, day
      `k` taking entry `k` of each selection. Projecting a column out of the
      result gives that selection back. */
  function AssembleMeals(drinks: seq<FoodItem>, breads: seq<BreadItem>, fruits: seq<FoodItem>, lunches: seq<FoodItem>): (meals: seq<DayMeal>)
    requires |drinks| == |breads| == |fruits| == |lunches| == |DaysOfWeek|
    ensures |meals| == |DaysOfWeek|
    ensures forall k :: 0 <= k < |meals| ==> meals[k].day == DaysOfWeek[k]
    ensures MapSeq(MealDrink, meals) == drinks
    ensures MapSeq(MealBread, meals) == breads
    ensures MapSeq(MealFruit, meals) == fruits
    ensures MapSeq(MealLunch, meals) == lunches
  {
    seq(|DaysOfWeek|, k requires 0 <= k < |DaysOfWeek| =>
      DayMeal(DaysOfWeek[k], Breakfast(drinks[k], breads[k], fruits[k]), lunches[k]))
  }

  /** The meals of a week drawn from `catalogue` with `draws`: well formed,
      and without repetition when the catalogue is ample. */
  function PlanMeals(catalogue: Catalogue, draws: WeekDraws): (meals: seq<DayMeal>)
    requires NonEmptyCatalogue(catalogue) && ValidWeekDraws(catalogue, draws)
    ensures WellFormedMeals(catalogue, meals)
    ensures AmpleCatalogue(catalogue) ==> RepeatFree(catalogue, meals)
  {
    var weekBreads := RandomItemsForWeek(catalogue.breads, PlanDays, draws.breads);
    var weekFruits := RandomItemsForWeek(catalogue.fruits, PlanDays, draws.fruits);
    var weekDrinks := RandomItemsForWeek(catalogue.drinks, PlanDays, draws.drinks);
    var weekLunches := RandomItemsForWeek(catalogue.lunches, PlanDays, draws.lunches);
    SelectionFacts(catalogue, draws);
    AssembleMeals(weekDrinks, weekBreads, weekFruits, weekLunches)
  }

  /** What the four selections of a week guarantee about repetition when
      the catalogue is ample. */
  lemma SelectionFacts(catalogue: Catalogue, draws: WeekDraws)
    requires NonEmptyCatalogue(catalogue) && ValidWeekDraws(catalogue, draws)
    ensures AmpleCatalogue(catalogue) ==>
      && multiset(RandomItemsForWeek(catalogue.breads, PlanDays, draws.breads)) == multiset(catalogue.breads)
      && Distinct(BreadIds(RandomItemsForWeek(catalogue.breads, PlanDays, draws.breads)))
      && Distinct(Ids(RandomItemsForWeek(catalogue.fruits, PlanDays, draws.fruits)))
      && Distinct(Ids(RandomItemsForWeek(catalogue.drinks, PlanDays, draws.drinks)))
      && Distinct(Ids(RandomItemsForWeek(catalogue.lunches, PlanDays, draws.lunches)))
  {
    if AmpleCatalogue(catalogue) {
      SelectionFullPass(catalogue.breads, draws.breads);
      SelectionMap(BreadId, catalogue.breads, PlanDays, draws.breads);
      SelectionDistinct(BreadIds(catalogue.breads), PlanDays, draws.breads);
      SelectionMap(ItemId, catalogue.fruits, PlanDays, draws.fruits);
      SelectionDistinct(Ids(catalogue.fruits), PlanDays, draws.fruits);
      SelectionMap(ItemId, catalogue.drinks, PlanDays, draws.drinks);
      SelectionDistinct(Ids(catalogue.drinks), PlanDays, draws.drinks);
      SelectionMap(ItemId, catalogue.lunches, PlanDays, draws.lunches);
      SelectionDistinct(Ids(catalogue.lunches), PlanDays, draws.lunches);
    }
  }

  /** With the configured catalogue every week serves each of the seven
      breads once and repeats no fruit, drink or lunch id. */
  lemma FoodCatalogueWeeksRepeatFree(draws: WeekDraws)
    requires ValidWeekDraws(FoodCatalogue, draws)
    ensures NonEmptyCatalogue(FoodCatalogue)
    ensures RepeatFree(FoodCatalogue, PlanMeals(FoodCatalogue, draws))
  {
    FoodCatalogueAmple();
  }

  /** The drinks of a week are the first seven of one shuffle of the
      catalogue's drinks, when it lists at least seven. */
  lemma WeekDrinksShuffled(catalogue: Catalogue, draws: WeekDraws)
    requires NonEmptyCatalogue(catalogue) && ValidWeekDraws(catalogue, draws)
    requires |catalogue.drinks| >= PlanDays
    ensures MapSeq(MealDrink, PlanMeals(catalogue, draws)) == ShuffleArray(catalogue.drinks, draws.drinks)[..PlanDays]
  {
    var n := |catalogue.drinks|;
    var shuffled := ShuffleArray(catalogue.drinks, draws.drinks);
    var week := RandomItemsForWeek(catalogue.drinks, PlanDays, draws.drinks);
    forall i | 0 <= i < PlanDays
      ensures week[i] == shuffled[i]
    {
      DivModUnique(i, n, 0, i);
    }
    assert week == shuffled[..PlanDays];
  }

  /** A name occurs in a week's drinks no more often than in the
      catalogue's list of drinks, when it lists at least seven. */
  lemma WeekDrinkNameBound(catalogue: Catalogue, draws: WeekDraws, name: string)
    requires NonEmptyCatalogue(catalogue) && ValidWeekDraws(catalogue, draws)
    requires |catalogue.drinks| >= PlanDays
    ensures CountName(MapSeq(MealDrink, PlanMeals(catalogue, draws)), name) <= CountName(catalogue.drinks, name)
  {
    var shuffled := ShuffleArray(catalogue.drinks, draws.drinks);
    WeekDrinksShuffled(catalogue, draws);
    CountNamePrefix(shuffled, PlanDays, name);
    CountNamePermutation(shuffled, catalogue.drinks, name);
  }

  /** Draws under which every shuffle of the week leaves its list in the
      listed order. */
  function ListedOrderDraws(catalogue: Catalogue): (draws: WeekDraws)
    ensures ValidWeekDraws(catalogue, draws)
    ensures ShuffleArray(catalogue.breads, draws.breads) == catalogue.breads
    ensures ShuffleArray(catalogue.fruits, draws.fruits) == catalogue.fruits
    ensures ShuffleArray(catalogue.drinks, draws.drinks) == catalogue.drinks
    ensures ShuffleArray(catalogue.lunches, draws.lunches) == catalogue.lunches
  {
    WeekDraws(
      KeepOrderDraws(catalogue.breads),
      KeepOrderDraws(catalogue.fruits),
      KeepOrderDraws(catalogue.drinks),
      KeepOrderDraws(catalogue.lunches))
  }

  /** With the configured catalogue no week serves "Café" more than three
      times, however the drinks are drawn. */
  lemma WeekServesCafeAtMostThrice(draws: WeekDraws)
    requires ValidWeekDraws(FoodCatalogue, draws)
    ensures NonEmptyCatalogue(FoodCatalogue)
    ensures CountName(MapSeq(MealDrink, PlanMeals(FoodCatalogue, draws)), "Café") <= 3
  {
    FoodCatalogueAmple();
    CafeListedThrice();
    WeekDrinkNameBound(FoodCatalogue, draws, "Café");
  }

  /** When the drinks carrying `name` lead the catalogue's list of at least
      seven drinks, a week whose drink shuffle keeps the listed order serves
      `name` once for each of them. */
  lemma WeekServesLeadingDrinks(catalogue: Catalogue, draws: WeekDraws, name: string, c: nat)
    requires NonEmptyCatalogue(catalogue) && ValidWeekDraws(catalogue, draws)
    requires ShuffleArray(catalogue.drinks, draws.drinks) == catalogue.drinks
    requires c <= PlanDays <= |catalogue.drinks| && CountName(catalogue.drinks, name) == c
    requires forall i :: 0 <= i < c ==> catalogue.drinks[i].name == name
    ensures CountName(MapSeq(MealDrink, PlanMeals(catalogue, draws)), name) == c
  {
    WeekDrinksShuffled(catalogue, draws);
    CountNameLeading(catalogue.drinks, c, PlanDays, name);
  }

  /** A week of the configured catalogue whose drink shuffle keeps the
      listed order serves "Café" three times, each time under a different
      drink id; `ListedOrderDraws` gives such draws. */
  lemma ListedOrderWeekServesCafeThrice(draws: WeekDraws)
    requires ValidWeekDraws(FoodCatalogue, draws)
    requires ShuffleArray(BreakfastDrinks, draws.drinks) == BreakfastDrinks
    ensures NonEmptyCatalogue(FoodCatalogue)
    ensures CountName(MapSeq(MealDrink, PlanMeals(FoodCatalogue, draws)), "Café") == 3
  {
    FoodCatalogueAmple();
    CafeListedThrice();
    WeekServesLeadingDrinks(FoodCatalogue, draws, "Café", 3);
  }

  /** Whether a plan's dates are one Monday-to-Sunday week: both parse, the
      start is a Monday and the end is six days after it. */
  predicate WeekDates(plan: WeeklyMealPlan)
  {
    var start := ParseIsoDate(plan.startDate);
    var end := ParseIsoDate(plan.endDate);
    && start.Some? && end.Some?
    && Weekday(ToDays(start.value)) == 1
    && ToDays(end.value) == ToDays(start.value) + 6
  }

  /** The first day of a plan's week, as a day number. */
  function StartDay(plan: WeeklyMealPlan): Day
    requires WeekDates(plan)
  {
    ToDays(ParseIsoDate(plan.startDate).value)
  }

  /** The last day of a plan's week, as a day number. */
  function EndDay(plan: WeeklyMealPlan): Day
    requires WeekDates(plan)
  {
    ToDays(ParseIsoDate(plan.endDate).value)
  }

  /** The days the generator is modelled on, 0101-01-01 through
      9998-12-31: the ISO strings of the Monday and Sunday around them have
      four-digit years, and `Date.UTC` in `getWeekNumber` reads neither the
      day nor its week's Thursday as a year of the 1900s. */
  predicate DatableDay(now: Day)
  {
    DaysBeforeYear(101) <= now < DaysBeforeYear(9999)
  }

  /** The datable days are exactly those whose calendar year is 101 to
      9998, and their week numbers are counted on their own years. */
  lemma DatableDayYear(now: Day)
    ensures DatableDay(now) <==> 101 <= FromDays(now).year <= 9998
    ensures DatableDay(now) ==> FullYearWeek(now)
  {
    var y := FromDays(now).year;
    if y < 101 {
      DaysBeforeYearMonotone(y + 1, 101);
    } else if y > 9998 {
      DaysBeforeYearMonotone(9999, y);
    } else {
      DaysBeforeYearMonotone(101, y);
      DaysBeforeYearMonotone(y + 1, 9999);
    }
    assert DaysBeforeYear(101) >= DaysBeforeYear(100) + 3;
  }

  /** The Monday and Sunday of the week of a datable day have four-digit
      years. */
  lemma WeekEndsDatable(now: Day)
    requires DatableDay(now)
    ensures FourDigitDate(FromDays(GetMondayOfWeek(now)))
    ensures FourDigitDate(FromDays(AddDays(GetMondayOfWeek(now), 6)))
  {
    DatableDayYear(now);
    var monday := GetMondayOfWeek(now);
    NearbyDayYear(now, monday);
    NearbyDayYear(now, AddDays(monday, 6));
  }

  /** Every day of the week starting at the Monday of `now` has the week
      number of `now`. */
  lemma WeekNumberCoversWeek(now: Day)
    ensures forall d :: GetMondayOfWeek(now) <= d <= GetMondayOfWeek(now) + 6 ==> IsoWeek(d) == IsoWeek(now)
  {
    var monday := GetMondayOfWeek(now);
    forall d | monday <= d <= monday + 6
      ensures IsoWeek(d) == IsoWeek(now)
    {
      IsoWeekSameAllWeek(now, d);
    }
  }

  /** Whether `plan` is dated for the week of day `now`: its dates are the
      Monday-to-Sunday week holding `now`, and its week number is the ISO
      week number of `now` and of every day of that week. */
  predicate PlanForWeekOf(plan: WeeklyMealPlan, now: Day)
  {
    && WeekDates(plan)
    && StartDay(plan) <= now <= EndDay(plan)
    && plan.weekNumber == IsoWeek(now)
    && (forall d :: StartDay(plan) <= d <= EndDay(plan) ==> IsoWeek(d) == plan.weekNumber)
  }

  /** `generateWeeklyMealPlan` at day `now`, with the id and creation
      timestamp it is given, the catalogue it reads and the week's random
      draws: the plan is dated for the week of `now`, records the calendar
      year of `now`, and holds a well-formed week of meals, without
      repetition when the catalogue is ample. */
  function GenerateWeeklyMealPlan(catalogue: Catalogue, now: Day, id: string, createdAt: string, draws: WeekDraws): (plan: WeeklyMealPlan)
    requires NonEmptyCatalogue(catalogue) && ValidWeekDraws(catalogue, draws)
    requires DatableDay(now)
    ensures plan.id == id && plan.createdAt == createdAt
    ensures PlanForWeekOf(plan, now)
    ensures plan.year == FromDays(now).year
    ensures WellFormedMeals(catalogue, plan.meals)
    ensures AmpleCatalogue(catalogue) ==> RepeatFree(catalogue, plan.meals)
  {
    var monday := GetMondayOfWeek(now);
    WeekEndsDatable(now);
    DatableDayYear(now);
    var plan := WeeklyMealPlan(
      id,
      GetWeekNumber(now),
      FromDays(now).year,
      IsoDateString(FromDays(monday)),
      IsoDateString(FromDays(AddDays(monday, 6))),
      createdAt,
      PlanMeals(catalogue, draws));
    PlanWeek(now, plan);
    plan
  }

  /** The plan's `year` is the calendar year of `now`, not the year its week
      number counts in: a plan made on a Monday from 29 to 31 December is in
      week 1 of the next ISO year and records the earlier year. */
  lemma LateDecemberPlanYear(catalogue: Catalogue, c: CivilDate, id: string, createdAt: string, draws: WeekDraws)
    requires NonEmptyCatalogue(catalogue) && ValidWeekDraws(catalogue, draws)
    requires ValidDate(c) && 101 <= c.year <= 9998
    requires c.month == 12 && c.day >= 29 && Weekday(ToDays(c)) == 1
    ensures DatableDay(ToDays(c))
      && GenerateWeeklyMealPlan(catalogue, ToDays(c), id, createdAt, draws).weekNumber == 1
      && GenerateWeeklyMealPlan(catalogue, ToDays(c), id, createdAt, draws).year == c.year
      && IsoWeekYear(ToDays(c)) == c.year + 1
  {
    FromDaysToDays(c);
    DatableDayYear(ToDays(c));
    LateDecemberMondayIsWeekOne(c);
  }

  /** A plan made on Monday 30 December 2024 is numbered week 1 and records
      the year 2024. */
  lemma PlanOn30December2024(catalogue: Catalogue, id: string, createdAt: string, draws: WeekDraws)
    requires NonEmptyCatalogue(catalogue) && ValidWeekDraws(catalogue, draws)
    ensures DatableDay(ToDays(CivilDate(2024, 12, 30)))
      && GenerateWeeklyMealPlan(catalogue, ToDays(CivilDate(2024, 12, 30)), id, createdAt, draws).weekNumber == 1
      && GenerateWeeklyMealPlan(catalogue, ToDays(CivilDate(2024, 12, 30)), id, createdAt, draws).year == 2024
  {
    December30th2024IsMonday();
    LateDecemberPlanYear(catalogue, CivilDate(2024, 12, 30), id, createdAt, draws);
  }

  /** A plan written with the ISO dates of the Monday and Sunday around
      `now` and the week number of `now` is dated for the week of `now`. */
  lemma PlanWeek(now: Day, plan: WeeklyMealPlan)
    requires FourDigitDate(FromDays(GetMondayOfWeek(now)))
    requires FourDigitDate(FromDays(AddDays(GetMondayOfWeek(now), 6)))
    requires plan.startDate == IsoDateString(FromDays(GetMondayOfWeek(now)))
    requires plan.endDate == IsoDateString(FromDays(AddDays(GetMondayOfWeek(now), 6)))
    requires plan.weekNumber == GetWeekNumber(now) && FullYearWeek(now)
    ensures PlanForWeekOf(plan, now)
  {
    PlanWeekDates(now, plan);
    WeekNumberCoversWeek(now);
  }

  /** The dates written for the week of `now` are that Monday-to-Sunday week. */
  lemma PlanWeekDates(now: Day, plan: WeeklyMealPlan)
    requires FourDigitDate(FromDays(GetMondayOfWeek(now)))
    requires FourDigitDate(FromDays(AddDays(GetMondayOfWeek(now), 6)))
    requires plan.startDate == IsoDateString(FromDays(GetMondayOfWeek(now)))
    requires plan.endDate == IsoDateString(FromDays(AddDays(GetMondayOfWeek(now), 6)))
    ensures WeekDates(plan)
    ensures StartDay(plan) == GetMondayOfWeek(now)
    ensures EndDay(plan) == GetMondayOfWeek(now) + 6
  {
    var monday := GetMondayOfWeek(now);
    IsoDateRoundTrip(FromDays(monday));
    IsoDateRoundTrip(FromDays(AddDays(monday, 6)));
    assert ParseIsoDate(plan.startDate) == Some(FromDays(monday));
    assert ParseIsoDate(plan.endDate) == Some(FromDays(monday + 6));
  }

  /** Whether two plans are for the same week: same week number, year and
      dates. */
  predicate SameWeek(a: WeeklyMealPlan, b: WeeklyMealPlan)
  {
    a.weekNumber == b.weekNumber && a.year == b.year && a.startDate == b.startDate && a.endDate == b.endDate
  }

  /** `generateVariation`: a fresh week of meals for the week of `original`,
      under a new id and creation timestamp. */
  function GenerateVariation(catalogue: Catalogue, original: WeeklyMealPlan, id: string, createdAt: string, draws: WeekDraws): (variation: WeeklyMealPlan)
    requires NonEmptyCatalogue(catalogue) && ValidWeekDraws(catalogue, draws)
    ensures variation.id == id && variation.createdAt == createdAt
    ensures SameWeek(variation, original)
    ensures WeekDates(original) ==> WeekDates(variation)
    ensures WellFormedMeals(catalogue, variation.meals)
    ensures AmpleCatalogue(catalogue) ==> RepeatFree(catalogue, variation.meals)
  {
    WeeklyMealPlan(id, original.weekNumber, original.year, original.startDate, original.endDate, createdAt, PlanMeals(catalogue, draws))
  }

  /** A variation reads nothing of the original but its week: plans for the
      same week give the same variation, whatever their meals. */
  lemma VariationIgnoresMeals(catalogue: Catalogue, a: WeeklyMealPlan, b: WeeklyMealPlan, id: string, createdAt: string, draws: WeekDraws)
    requires NonEmptyCatalogue(catalogue) && ValidWeekDraws(catalogue, draws)
    requires SameWeek(a, b)
    ensures GenerateVariation(catalogue, a, id, createdAt, draws) == GenerateVariation(catalogue, b, id, createdAt, draws)
  {
  }

  /** A variation and a freshly generated plan drawn with the same draws
      serve the same meals: both assemble the week the same way. */
  lemma VariationMealsAsGenerated(catalogue: Catalogue, now: Day, original: WeeklyMealPlan, id: string, createdAt: string, draws: WeekDraws)
    requires NonEmptyCatalogue(catalogue) && ValidWeekDraws(catalogue, draws)
    requires DatableDay(now)
    ensures GenerateVariation(catalogue, original, id, createdAt, draws).meals == GenerateWeeklyMealPlan(catalogue, now, id, createdAt, draws).meals
  {
  }

  /** Being dated for the week of a day depends only on a plan's week, so a
      variation of a plan for the week of `now` is one too. */
  lemma SameWeekPlanFor(a: WeeklyMealPlan, b: WeeklyMealPlan, now: Day)
    requires SameWeek(a, b) && PlanForWeekOf(a, now)
    ensures PlanForWeekOf(b, now)
  {
    assert StartDay(a) == StartDay(b) && EndDay(a) == EndDay(b);
  }

  // ---------------------------------------------------------------------------
  // Display of a week's date range
  // ---------------------------------------------------------------------------

  /** Spanish month abbreviations, January first. */
  const MonthAbbreviations: seq<string> := ["Ene", "Feb", "Mar", "Abr", "May", "Jun", "Jul", "Ago", "Sep", "Oct", "Nov", "Dic"]

  /** The abbreviation `formatWeekRange` shows for month `month`. */
  function MonthName(month: int): (name: string)
    requires 1 <= month <= 12
    ensures |name| == 3
  {
    MonthAbbreviations[month - 1]
  }

  /** The month an abbreviation names, 0 for none. */
  function MonthNumber(name: string): (month: int)
    ensures 0 <= month <= 12
  {
    if name == "Ene" then 1 else if name == "Feb" then 2 else if name == "Mar" then 3
    else if name == "Abr" then 4 else if name == "May" then 5 else if name == "Jun" then 6
    else if name == "Jul" then 7 else if name == "Ago" then 8 else if name == "Sep" then 9
    else if name == "Oct" then 10 else if name == "Nov" then 11 else if name == "Dic" then 12
    else 0
  }

  /** Every month's abbreviation reads back as that month. */
  lemma MonthNameRoundTrip(month: int)
    requires 1 <= month <= 12
    ensures MonthNumber(MonthName(month)) == month
  {
  }

  /** No two months share an abbreviation. */
  lemma MonthNamesDistinct(a: int, b: int)
    requires 1 <= a <= 12 && 1 <= b <= 12
    ensures MonthName(a) == MonthName(b) <==> a == b
  {
    MonthNameRoundTrip(a);
    MonthNameRoundTrip(b);
  }

  /** `formatWeekRange`: "Ene 6 - 12, 2025" when both dates fall in the same
      month, "Dic 30 - Ene 5, 2025" otherwise; the year shown is the end
      date's. */
  function FormatWeekRange(startDate: string, endDate: string): (r: string)
    requires ParseIsoDate(startDate).Some? && ParseIsoDate(endDate).Some?
    ensures var start, end := ParseIsoDate(startDate).value, ParseIsoDate(endDate).value;
      && (start.month == end.month ==>
          r == MonthName(start.month) + " " + NatToString(start.day) + " - " + NatToString(end.day) + ", " + NatToString(end.year))
      && (start.month != end.month ==>
          r == MonthName(start.month) + " " + NatToString(start.day) + " - " + MonthName(end.month) + " " + NatToString(end.day) + ", " + NatToString(end.year))
  {
    FormatDates(ParseIsoDate(startDate).value, ParseIsoDate(endDate).value)
  }

  /** The range text of two dates: the start's month name always, and the
      end's month name too only when the months' names differ. */
  function FormatDates(start: CivilDate, end: CivilDate): (r: string)
    requires 1 <= start.month <= 12 && 1 <= end.month <= 12
    requires start.day >= 0 && end.day >= 0 && end.year >= 0
    ensures start.month == end.month ==>
      r == MonthName(start.month) + " " + NatToString(start.day) + " - " + NatToString(end.day) + ", " + NatToString(end.year)
    ensures start.month != end.month ==>
      r == MonthName(start.month) + " " + NatToString(start.day) + " - " + MonthName(end.month) + " " + NatToString(end.day) + ", " + NatToString(end.year)
  {
    var startMonth := MonthName(start.month);
    var endMonth := MonthName(end.month);
    var year := end.year;
    MonthNamesDistinct(start.month, end.month);
    if startMonth == endMonth then
      startMonth + " " + NatToString(start.day) + " - " + NatToString(end.day) + ", " + NatToString(year)
    else
      startMonth + " " + NatToString(start.day) + " - " + endMonth + " " + NatToString(end.day) + ", " + NatToString(year)
  }

  /** Whether `r` is the range shown for the Monday-to-Sunday week starting
      on `start`: one month name when the Sunday falls in the Monday's month,
      both names when the week crosses into the next month, and the next year
      when it crosses from December into January. */
  predicate WeekRangeText(start: CivilDate, r: string)
    requires ValidDate(start) && start.year >= 0
  {
    var dim := DaysInMonth(start.year, start.month);
    && (start.day + 6 <= dim ==>
        r == MonthName(start.month) + " " + NatToString(start.day) + " - " + NatToString(start.day + 6) + ", " + NatToString(start.year))
    && (start.day + 6 > dim && start.month < 12 ==>
        r == MonthName(start.month) + " " + NatToString(start.day) + " - " + MonthName(start.month + 1) + " " + NatToString(start.day + 6 - dim) + ", " + NatToString(start.year))
    && (start.day + 6 > dim && start.month == 12 ==>
        r == MonthName(12) + " " + NatToString(start.day) + " - " + MonthName(1) + " " + NatToString(start.day - 25) + ", " + NatToString(start.year + 1))
  }

  /** The range text of a date and the date six days later is determined by
      the first date. */
  lemma WeekDatesText(start: CivilDate, end: CivilDate)
    requires ValidDate(start) && ValidDate(end) && start.year >= 0
    requires ToDays(end) == ToDays(start) + 6
    ensures end.year >= 0
    ensures WeekRangeText(start, FormatDates(start, end))
  {
    var dim := DaysInMonth(start.year, start.month);
    WeekEnd(start, end);
    if start.day + 6 > dim && start.month < 12 {
      MonthNamesDistinct(start.month, start.month + 1);
    }
  }

  /** The range shown for a plan's dates is that of the week starting on
      its Monday. */
  lemma WeekRangeOfPlan(plan: WeeklyMealPlan)
    requires WeekDates(plan)
    ensures WeekRangeText(ParseIsoDate(plan.startDate).value, FormatWeekRange(plan.startDate, plan.endDate))
  {
    WeekDatesText(ParseIsoDate(plan.startDate).value, ParseIsoDate(plan.endDate).value);
  }

  /** The Sunday six days after a Monday, in calendar fields. */
  lemma WeekEnd(start: CivilDate, end: CivilDate)
    requires ValidDate(start) && ValidDate(end)
    requires ToDays(end) == ToDays(start) + 6
    ensures end ==
      if start.day + 6 <= DaysInMonth(start.year, start.month) then CivilDate(start.year, start.month, start.day + 6)
      else if start.month < 12 then CivilDate(start.year, start.month + 1, start.day + 6 - DaysInMonth(start.year, start.month))
      else CivilDate(start.year + 1, 1, start.day - 25)
  {
    FromDaysToDays(end);
    DaysLater(start, 6);
  }
}

=== FILE: meal_plan.dfy ===
/** The server actions over the stored plan history: reading it, generating a
    new plan and rotating the current week into the previous weeks, and
    clearing it. The history file is a value handed in and handed back; the
    outcome of each file write and page refresh is an input. */
module MealPlan {
  import opened Types
  import opened FoodData
  import opened Calendar
  import opened Generator

  /** What the history file holds, as far as reading it can tell: a history,
      or nothing usable (no data directory or file, a read error, text that
      is not JSON). */
  datatype Store = Stored(history: MealPlanHistory) | Unreadable

  /** The state of the store after an action, with the action's result. */
  datatype Outcome<T> = Outcome(result: ActionResult<T>, store: Store)

  const EmptyHistory: MealPlanHistory := MealPlanHistory(None, [])

  const LoadError: string := "No se pudo cargar el historial de comidas."
  const GenerateError: string := "No se pudo generar el plan de comidas."
  const ClearError: string := "No se pudo limpiar el historial."

  /** The shape every action result has: a success carries no error, and a
      failure carries an error message and no data. */
  predicate WellFormedResult<T>(r: ActionResult<T>)
  {
    (r.success ==> r.error.None?) && (!r.success ==> r.data.None? && r.error.Some?)
  }

  function Failure<T>(error: string): (r: ActionResult<T>)
    ensures WellFormedResult(r) && !r.success && r.error == Some(error)
  {
    ActionResult(false, None, Some(error))
  }

  /** `readHistory`: the stored history, and the empty history whenever the
      file cannot be read or parsed. */
  function ReadHistory(store: Store): (history: MealPlanHistory)
    ensures store.Stored? ==> history == store.history
    ensures store.Unreadable? ==> history.currentWeek.None? && history.previousWeeks == []
  {
    match store
    case Stored(h) => h
    case Unreadable => EmptyHistory
  }

  /** `writeHistory`: when the write goes through, reading the file back
      gives `history`; when it fails, the file is as it was. */
  function WriteHistory(store: Store, history: MealPlanHistory, written: bool): (after: Store)
    ensures written ==> ReadHistory(after) == history
    ensures !written ==> after == store
  {
    if written then Stored(history) else store
  }

  /** `getMealPlanHistory`: succeeds with what reading the file gives.
      Reading never fails, because a read failure turns into the empty
      history, so the action's `LoadError` branch is never taken. */
  function GetMealPlanHistory(store: Store): (r: ActionResult<MealPlanHistory>)
    ensures WellFormedResult(r)
    ensures r.success && r.data == Some(ReadHistory(store))
    ensures store.Unreadable? ==> r.data == Some(EmptyHistory)
  {
    ActionResult(true, Some(ReadHistory(store)), None)
  }

  /** The history update of `generateNewMealPlan`: the current week, if any,
      moves to the front of the previous weeks, which are then cut back to
      the newest `MaxHistoryWeeks`; the new plan becomes the current week.
      Without a current week the previous weeks are left as they are. */
  function RotateHistory(history: MealPlanHistory, newPlan: WeeklyMealPlan): (rotated: MealPlanHistory)
    ensures rotated.currentWeek == Some(newPlan)
    ensures history.currentWeek.None? ==> rotated.previousWeeks == history.previousWeeks
    ensures history.currentWeek.Some? ==>
      && |rotated.previousWeeks| == (if |history.previousWeeks| < MaxHistoryWeeks then |history.previousWeeks| + 1 else MaxHistoryWeeks)
      && rotated.previousWeeks[0] == history.currentWeek.value
      && (forall i :: 1 <= i < |rotated.previousWeeks| ==> rotated.previousWeeks[i] == history.previousWeeks[i - 1])
  {
    var previousWeeks :=
      if history.currentWeek.Some? then
        var shifted := [history.currentWeek.value] + history.previousWeeks;
        if |shifted| > MaxHistoryWeeks then shifted[..MaxHistoryWeeks] else shifted
      else history.previousWeeks;
    MealPlanHistory(Some(newPlan), previousWeeks)
  }

  /** What generating a plan needs: lists with items to draw, draws that
      fit them, and a day the generator can date. */
  predicate Generatable(catalogue: Catalogue, now: Day, draws: WeekDraws)
  {
    NonEmptyCatalogue(catalogue) && ValidWeekDraws(catalogue, draws) && DatableDay(now)
  }

  /** `generateNewMealPlan` at day `now`: reads the history, rotates the
      plan generated from `catalogue` with `id`, `createdAt` and `draws` into
      it and writes it back. It succeeds with the new plan when both the write and the page
      refresh go through; otherwise it fails with `GenerateError`. A failed
      write leaves the file as it was; a refresh that fails after the write
      leaves the new history stored although the action reports failure. */
  function GenerateNewMealPlan(store: Store, catalogue: Catalogue, now: Day, id: string, createdAt: string, draws: WeekDraws, written: bool, refreshed: bool): (o: Outcome<WeeklyMealPlan>)
    requires Generatable(catalogue, now, draws)
    ensures WellFormedResult(o.result)
    ensures o.result.success <==> written && refreshed
    ensures o.result.success ==> o.result.data == Some(GenerateWeeklyMealPlan(catalogue, now, id, createdAt, draws))
    ensures !o.result.success ==> o.result.error == Some(GenerateError)
    ensures written ==> ReadHistory(o.store) == RotateHistory(ReadHistory(store), GenerateWeeklyMealPlan(catalogue, now, id, createdAt, draws))
    ensures !written ==> o.store == store
  {
    var history := ReadHistory(store);
    var newPlan := GenerateWeeklyMealPlan(catalogue, now, id, createdAt, draws);
    var after := WriteHistory(store, RotateHistory(history, newPlan), written);
    if written && refreshed then Outcome(ActionResult(true, Some(newPlan), None), after)
    else Outcome(Failure(GenerateError), after)
  }

  /** `clearHistory`: writes the empty history. It succeeds, without data,
      when both the write and the page refresh go through; otherwise it
      fails with `ClearError`. */
  function ClearHistory(store: Store, written: bool, refreshed: bool): (o: Outcome<()>)
    ensures WellFormedResult(o.result)
    ensures o.result.success <==> written && refreshed
    ensures o.result.data.None?
    ensures !o.result.success ==> o.result.error == Some(ClearError)
    ensures written ==> ReadHistory(o.store) == EmptyHistory
    ensures !written ==> o.store == store
  {
    var after := WriteHistory(store, EmptyHistory, written);
    if written && refreshed then Outcome(ActionResult(true, None, None), after)
    else Outcome(Failure(ClearError), after)
  }

  // ---------------------------------------------------------------------------
  // The history bound
  // ---------------------------------------------------------------------------

  /** At most `MaxHistoryWeeks` previous weeks are kept. */
  predicate BoundedHistory(history: MealPlanHistory)
  {
    |history.previousWeeks| <= MaxHistoryWeeks
  }

  /** Rotation establishes the bound whenever there is a current week to move,
      and keeps it otherwise. */
  lemma RotateBounded(history: MealPlanHistory, newPlan: WeeklyMealPlan)
    ensures history.currentWeek.Some? ==> BoundedHistory(RotateHistory(history, newPlan))
    ensures BoundedHistory(history) ==> BoundedHistory(RotateHistory(history, newPlan))
    ensures history.currentWeek.None? ==> (BoundedHistory(RotateHistory(history, newPlan)) <==> BoundedHistory(history))
  {
  }

  /** Every action keeps a bounded store bounded, and clearing bounds any
      store it writes. */
  lemma ActionsKeepBound(store: Store, catalogue: Catalogue, now: Day, id: string, createdAt: string, draws: WeekDraws, written: bool, refreshed: bool)
    requires Generatable(catalogue, now, draws)
    requires BoundedHistory(ReadHistory(store))
    ensures BoundedHistory(ReadHistory(GenerateNewMealPlan(store, catalogue, now, id, createdAt, draws, written, refreshed).store))
    ensures BoundedHistory(ReadHistory(ClearHistory(store, written, refreshed).store))
  {
    var plan := GenerateWeeklyMealPlan(catalogue, now, id, createdAt, draws);
    RotateBounded(ReadHistory(store), plan);
  }

  // ---------------------------------------------------------------------------
  // Several generations in a row
  // ---------------------------------------------------------------------------

  /** Two rotations in a row: the second plan is current, and the first is
      the newest previous week, ahead of the previous weeks the first
      rotation left, cut back to the bound. */
  lemma RotateTwice(history: MealPlanHistory, plan: WeeklyMealPlan, plan': WeeklyMealPlan)
    ensures var once := RotateHistory(history, plan);
            var twice := RotateHistory(once, plan');
            && twice.currentWeek == Some(plan')
            && 1 <= |twice.previousWeeks| <= MaxHistoryWeeks
            && twice.previousWeeks[0] == plan
            && twice.previousWeeks[1..] == once.previousWeeks[..|twice.previousWeeks| - 1]
  {
    var once := RotateHistory(history, plan);
    var twice := RotateHistory(once, plan');
    assert twice.previousWeeks[1..] == once.previousWeeks[..|twice.previousWeeks| - 1];
  }

  /** Two successful generations: the second plan is current and the first
      plan is the newest previous week. */
  lemma SecondPlanKeepsFirst(store: Store, catalogue: Catalogue, now: Day, id: string, createdAt: string, draws: WeekDraws,
                             now': Day, id': string, createdAt': string, draws': WeekDraws, refreshed: bool, refreshed': bool)
    requires Generatable(catalogue, now, draws)
    requires Generatable(catalogue, now', draws')
    ensures var first := GenerateNewMealPlan(store, catalogue, now, id, createdAt, draws, true, refreshed);
            var second := GenerateNewMealPlan(first.store, catalogue, now', id', createdAt', draws', true, refreshed');
            var history := ReadHistory(second.store);
            && history.currentWeek == Some(GenerateWeeklyMealPlan(catalogue, now', id', createdAt', draws'))
            && |history.previousWeeks| >= 1
            && history.previousWeeks[0] == GenerateWeeklyMealPlan(catalogue, now, id, createdAt, draws)
  {
    var plan := GenerateWeeklyMealPlan(catalogue, now, id, createdAt, draws);
    var plan' := GenerateWeeklyMealPlan(catalogue, now', id', createdAt', draws');
    var first := GenerateNewMealPlan(store, catalogue, now, id, createdAt, draws, true, refreshed);
    var second := GenerateNewMealPlan(first.store, catalogue, now', id', createdAt', draws', true, refreshed');
    assert ReadHistory(first.store) == RotateHistory(ReadHistory(store), plan);
    assert ReadHistory(second.store) == RotateHistory(ReadHistory(first.store), plan');
    RotateTwice(ReadHistory(store), plan, plan');
  }

  /** The history after rotating in each of `plans` in turn. */
  function RotateAll(history: MealPlanHistory, plans: seq<WeeklyMealPlan>): (after: MealPlanHistory)
    ensures plans != [] ==> after.currentWeek == Some(plans[|plans| - 1])
  {
    if plans == [] then history
    else RotateHistory(RotateAll(history, plans[..|plans| - 1]), plans[|plans| - 1])
  }

  /** Whether `history` holds the last of `plans` as its current week and
      the newest `MaxHistoryWeeks` of the plans before it as its previous
      weeks, newest first. */
  predicate HoldsNewest(history: MealPlanHistory, plans: seq<WeeklyMealPlan>)
  {
    && plans != []
    && history.currentWeek == Some(plans[|plans| - 1])
    && |history.previousWeeks| == (if |plans| - 1 < MaxHistoryWeeks then |plans| - 1 else MaxHistoryWeeks)
    && (forall i :: 0 <= i < |history.previousWeeks| ==> history.previousWeeks[i] == plans[|plans| - 2 - i])
  }

  /** One rotation keeps the previous weeks newest first: if they were the
      newest of the plans before the current one, afterwards they are the
      newest of all the plans up to the new current one. */
  lemma RotateKeepsNewest(before: MealPlanHistory, plan: WeeklyMealPlan, plans: seq<WeeklyMealPlan>)
    requires HoldsNewest(before, plans)
    ensures HoldsNewest(RotateHistory(before, plan), plans + [plan])
  {
    var previous := RotateHistory(before, plan).previousWeeks;
    var plans' := plans + [plan];
    forall i | 0 <= i < |previous|
      ensures previous[i] == plans'[|plans'| - 2 - i]
    {
      if i > 0 {
        assert previous[i] == before.previousWeeks[i - 1];
      }
    }
  }

  /** Starting from the empty history, after any number of generations the
      previous weeks are the newest `MaxHistoryWeeks` of the earlier plans,
      newest first. */
  lemma {:induction false} RotateAllKeepsNewest(plans: seq<WeeklyMealPlan>)
    requires plans != []
    ensures HoldsNewest(RotateAll(EmptyHistory, plans), plans)
  {
    var n := |plans|;
    var earlier := plans[..n - 1];
    if earlier != [] {
      RotateAllKeepsNewest(earlier);
      RotateKeepsNewest(RotateAll(EmptyHistory, earlier), plans[n - 1], earlier);
      assert earlier + [plans[n - 1]] == plans;
    }
  }

  /** The inputs of one `generateNewMealPlan` call: the day, the new plan's
      id and creation timestamp, the week's draws, and whether the history
      write and the page refresh go through. */
  datatype Request = Request(now: Day, id: string, createdAt: string, draws: WeekDraws, written: bool, refreshed: bool)

  /** Every request of a run can generate a plan from `catalogue`. */
  predicate RunGeneratable(catalogue: Catalogue, requests: seq<Request>)
  {
    forall k :: 0 <= k < |requests| ==> Generatable(catalogue, requests[k].now, requests[k].draws)
  }

  /** The store after calling `generateNewMealPlan` once per request, in
      order, each call reading what the one before left. */
  function RunGenerations(store: Store, catalogue: Catalogue, requests: seq<Request>): Store
    requires RunGeneratable(catalogue, requests)
  {
    if requests == [] then store
    else
      var r := requests[|requests| - 1];
      GenerateNewMealPlan(RunGenerations(store, catalogue, requests[..|requests| - 1]), catalogue, r.now, r.id, r.createdAt, r.draws, r.written, r.refreshed).store
  }

  /** The plans of a run whose history write went through, in order. */
  function WrittenPlans(catalogue: Catalogue, requests: seq<Request>): seq<WeeklyMealPlan>
    requires RunGeneratable(catalogue, requests)
  {
    if requests == [] then []
    else
      var r := requests[|requests| - 1];
      var earlier := WrittenPlans(catalogue, requests[..|requests| - 1]);
      if r.written then earlier + [GenerateWeeklyMealPlan(catalogue, r.now, r.id, r.createdAt, r.draws)] else earlier
  }

  /** Rotating in one more plan after a list of plans is rotating in the
      longer list. */
  lemma RotateAllSnoc(history: MealPlanHistory, plans: seq<WeeklyMealPlan>, plan: WeeklyMealPlan)
    ensures RotateAll(history, plans + [plan]) == RotateHistory(RotateAll(history, plans), plan)
  {
    assert (plans + [plan])[..|plans|] == plans;
  }

  /** Every request of a run's prefix can generate a plan too. */
  lemma RunGeneratablePrefix(catalogue: Catalogue, requests: seq<Request>, k: nat)
    requires RunGeneratable(catalogue, requests) && k <= |requests|
    ensures RunGeneratable(catalogue, requests[..k])
  {
  }

  /** The last call of a run rotates its plan into the history the earlier
      calls left when its write goes through, and leaves that history
      otherwise. */
  lemma RunStep(store: Store, catalogue: Catalogue, requests: seq<Request>)
    requires RunGeneratable(catalogue, requests) && requests != []
    requires RunGeneratable(catalogue, requests[..|requests| - 1])
    ensures var r := requests[|requests| - 1];
            var before := ReadHistory(RunGenerations(store, catalogue, requests[..|requests| - 1]));
            var plan := GenerateWeeklyMealPlan(catalogue, r.now, r.id, r.createdAt, r.draws);
            ReadHistory(RunGenerations(store, catalogue, requests)) == (if r.written then RotateHistory(before, plan) else before)
  {
  }

  /** The plans written by a run are those of its earlier calls, followed by
      the last call's plan when its write goes through. */
  lemma WrittenPlansStep(catalogue: Catalogue, requests: seq<Request>)
    requires RunGeneratable(catalogue, requests) && requests != []
    requires RunGeneratable(catalogue, requests[..|requests| - 1])
    ensures var r := requests[|requests| - 1];
            var earlier := WrittenPlans(catalogue, requests[..|requests| - 1]);
            WrittenPlans(catalogue, requests) == (if r.written then earlier + [GenerateWeeklyMealPlan(catalogue, r.now, r.id, r.createdAt, r.draws)] else earlier)
  {
  }

  /** A run of `generateNewMealPlan` calls leaves the history of rotating in,
      in order, every plan whose write went through; a call whose write
      fails leaves no trace, whatever its refresh does. */
  lemma {:induction false} GenerationsRotateAll(store: Store, catalogue: Catalogue, requests: seq<Request>)
    requires RunGeneratable(catalogue, requests)
    ensures ReadHistory(RunGenerations(store, catalogue, requests)) == RotateAll(ReadHistory(store), WrittenPlans(catalogue, requests))
    decreases |requests|
  {
    if requests != [] {
      var r, earlier := requests[|requests| - 1], requests[..|requests| - 1];
      RunGeneratablePrefix(catalogue, requests, |requests| - 1);
      RunStep(store, catalogue, requests);
      WrittenPlansStep(catalogue, requests);
      GenerationsRotateAll(store, catalogue, earlier);
      RotateAllSnoc(ReadHistory(store), WrittenPlans(catalogue, earlier), GenerateWeeklyMealPlan(catalogue, r.now, r.id, r.createdAt, r.draws));
    }
  }

  /** From an empty or unreadable history file, after a run of
      `generateNewMealPlan` calls the current week is the last plan written
      and the previous weeks are the newest `MaxHistoryWeeks` plans written
      before it, newest first. */
  lemma RunKeepsNewest(store: Store, catalogue: Catalogue, requests: seq<Request>)
    requires RunGeneratable(catalogue, requests)
    requires ReadHistory(store) == EmptyHistory
    requires WrittenPlans(catalogue, requests) != []
    ensures HoldsNewest(ReadHistory(RunGenerations(store, catalogue, requests)), WrittenPlans(catalogue, requests))
  {
    var plans := WrittenPlans(catalogue, requests);
    GenerationsRotateAll(store, catalogue, requests);
    RotateAllKeepsNewest(plans);
  }
}

=== FILE: selection.dfy ===
/** Bounded-repetition selection: a Fisher–Yates shuffle of a copy of the
    category, read cyclically.

    The random source is an explicit input. A draw sequence lists, in the
    order the loop consumes them, the swap partners `j` chosen for
    `i = n-1, n-2, ..., 1`; the draw used at `i` lies in `0..i`. Every
    property below holds for every such draw sequence. */
module Selection {
  import opened Seqs

  /** `draws` is a legal draw sequence for shuffling `n` items: one draw per
      loop iteration `i = n-1 .. 1`, the `k`-th at most `n-1-k`. */
  predicate ValidDraws(n: nat, draws: seq<nat>)
  {
    && |draws| == (if n == 0 then 0 else n - 1)
    && forall k :: 0 <= k < |draws| ==> draws[k] <= n - 1 - k
  }

  /** `Math.floor(Math.random() * (i + 1))` for a random real in [0, 1): the
      draw always lands in `0..i`. */
  function DrawIndex(random: real, i: nat): (j: nat)
    requires 0.0 <= random < 1.0
    ensures j <= i
    ensures j as real <= random * (i + 1) as real < (j + 1) as real
  {
    var x := random * (i + 1) as real;
    assert 0.0 <= x < (i + 1) as real;
    x.Floor
  }

  /** The draws made from a stream of `Math.random()` results while
      shuffling `n` items; they always form a legal draw sequence. */
  function DrawsFromRandoms(randoms: seq<real>, n: nat): (draws: seq<nat>)
    requires |randoms| == (if n == 0 then 0 else n - 1)
    requires forall k :: 0 <= k < |randoms| ==> 0.0 <= randoms[k] < 1.0
    ensures ValidDraws(n, draws)
    ensures forall k :: 0 <= k < |draws| ==> draws[k] == DrawIndex(randoms[k], n - 1 - k)
  {
    seq(|randoms|, k requires 0 <= k < |randoms| => DrawIndex(randoms[k], n - 1 - k))
  }

  /** Draws left for the iterations `i, i-1, ..., 1` of the shuffle loop. */
  predicate DrawsFrom(i: nat, draws: seq<nat>)
  {
    |draws| == i && forall k :: 0 <= k < i ==> draws[k] <= i - k
  }

  /** The shuffle loop from iteration `i` down to 1: swap position `i` with
      the drawn position, then continue with `i - 1`. Positions above `i` are
      never touched, and entries are only rearranged. */
  function ShuffleFrom<T>(s: seq<T>, i: nat, draws: seq<nat>): (r: seq<T>)
    requires i < |s| && DrawsFrom(i, draws)
    ensures |r| == |s|
    ensures multiset(r) == multiset(s)
    ensures r[i + 1..] == s[i + 1..]
    decreases i
  {
    if i == 0 then s
    else
      var t := Swap(s, i, draws[0]);
      SwapMultiset(s, i, draws[0]);
      assert t[i + 1..] == s[i + 1..];
      var r := ShuffleFrom(t, i - 1, draws[1..]);
      assert r[i + 1..] == r[i..][1..];
      r
  }

  /** Fisher–Yates shuffle over a copy of `list` (sequences are values, so
      the caller's list is never changed). The result is a permutation. */
  function ShuffleArray<T>(list: seq<T>, draws: seq<nat>): (shuffled: seq<T>)
    requires ValidDraws(|list|, draws)
    ensures |shuffled| == |list|
    ensures multiset(shuffled) == multiset(list)
  {
    if |list| == 0 then list else ShuffleFrom(list, |list| - 1, draws)
  }

  /** The push loop of the selector: `count` reads of `shuffled`, wrapping
      around at its end. */
  function Cycle<T>(shuffled: seq<T>, count: nat): (items: seq<T>)
    requires |shuffled| > 0
    ensures |items| == count
    ensures forall i :: 0 <= i < count ==> items[i] == shuffled[i % |shuffled|]
  {
    if count == 0 then [] else Cycle(shuffled, count - 1) + [shuffled[(count - 1) % |shuffled|]]
  }

  /** `count` items for the week: shuffle once, then read the shuffle
      cyclically, so item `i` is the shuffled entry at `i mod |list|`. */
  function RandomItemsForWeek<T>(list: seq<T>, count: nat, draws: seq<nat>): (items: seq<T>)
    requires |list| > 0 && ValidDraws(|list|, draws)
    ensures |items| == count
    ensures forall i :: 0 <= i < count ==> items[i] == ShuffleArray(list, draws)[i % |list|]
    ensures forall i :: 0 <= i < count ==> items[i] in list
  {
    var shuffled := ShuffleArray(list, draws);
    var items := Cycle(shuffled, count);
    assert forall i :: 0 <= i < count ==> items[i] in multiset(shuffled);
    items
  }

  // ---------------------------------------------------------------------------
  // Properties of the shuffle
  // ---------------------------------------------------------------------------

  /** The shuffle loop keeps a duplicate-free sequence duplicate-free. */
  lemma {:induction false} ShuffleFromDistinct<T>(s: seq<T>, i: nat, draws: seq<nat>)
    requires i < |s| && DrawsFrom(i, draws)
    requires Distinct(s)
    ensures Distinct(ShuffleFrom(s, i, draws))
    decreases i
  {
    if i > 0 {
      SwapDistinct(s, i, draws[0]);
      ShuffleFromDistinct(Swap(s, i, draws[0]), i - 1, draws[1..]);
    }
  }

  /** Distinct items stay distinct under the shuffle. */
  lemma ShuffleDistinct<T>(list: seq<T>, draws: seq<nat>)
    requires ValidDraws(|list|, draws)
    requires Distinct(list)
    ensures Distinct(ShuffleArray(list, draws))
  {
    if |list| > 0 {
      ShuffleFromDistinct(list, |list| - 1, draws);
    }
  }

  /** The shuffle loop moves positions, never looks at values: shuffling the
      images under `f` is the image of the shuffle. */
  lemma {:induction false} ShuffleFromMap<T, U>(f: T -> U, s: seq<T>, i: nat, draws: seq<nat>)
    requires i < |s| && DrawsFrom(i, draws)
    ensures ShuffleFrom(MapSeq(f, s), i, draws) == MapSeq(f, ShuffleFrom(s, i, draws))
    decreases i
  {
    if i > 0 {
      SwapMap(f, s, i, draws[0]);
      ShuffleFromMap(f, Swap(s, i, draws[0]), i - 1, draws[1..]);
    }
  }

  /** For the same draws, the selection over the images under `f` (for
      instance the item ids) is the image of the selection. */
  lemma SelectionMap<T, U>(f: T -> U, list: seq<T>, count: nat, draws: seq<nat>)
    requires |list| > 0 && ValidDraws(|list|, draws)
    ensures RandomItemsForWeek(MapSeq(f, list), count, draws) == MapSeq(f, RandomItemsForWeek(list, count, draws))
  {
    ShuffleFromMap(f, list, |list| - 1, draws);
  }

  /** The last position holding `x` among the first `n` entries of `s`. */
  function LastIndexOf<T(==)>(s: seq<T>, x: T, n: nat): (j: nat)
    requires n <= |s| && x in s[..n]
    ensures j < n && s[j] == x
    decreases n
  {
    if s[n - 1] == x then n - 1
    else
      assert s[..n] == s[..n - 1] + [s[n - 1]];
      LastIndexOf(s, x, n - 1)
  }

  /** Draws that make the shuffle loop, from iteration `i` down, turn `s`
      into `p`, provided `p` rearranges only the first `i + 1` entries. */
  function DrawsFor<T(==)>(s: seq<T>, p: seq<T>, i: nat): (draws: seq<nat>)
    requires i < |s| == |p|
    requires multiset(p[..i + 1]) == multiset(s[..i + 1])
    requires p[i + 1..] == s[i + 1..]
    ensures DrawsFrom(i, draws)
    ensures ShuffleFrom(s, i, draws) == p
    decreases i
  {
    if i == 0 then
      assert p[..1] == [p[0]] && s[..1] == [s[0]];
      assert multiset{p[0]} == multiset{s[0]};
      assert p == p[..1] + p[1..] && s == s[..1] + s[1..];
      []
    else
      var j := PartnerFor(s, p, i);
      SwapTowards(s, p, i, j);
      var rest := DrawsFor(Swap(s, i, j), p, i - 1);
      var draws := [j] + rest;
      assert draws[1..] == rest;
      draws
  }

  /** A position at or below `i` of `s` that holds the entry `p` wants at `i`. */
  function PartnerFor<T(==)>(s: seq<T>, p: seq<T>, i: nat): (j: nat)
    requires i < |s| == |p|
    requires multiset(p[..i + 1]) == multiset(s[..i + 1])
    ensures j <= i && s[j] == p[i]
  {
    assert p[..i + 1] == p[..i] + [p[i]];
    assert p[i] in multiset(s[..i + 1]);
    LastIndexOf(s, p[i], i + 1)
  }

  /** Swapping the right entry into position `i` fixes it for good and
      leaves a smaller instance of the same problem below `i`. */
  lemma SwapTowards<T>(s: seq<T>, p: seq<T>, i: nat, j: nat)
    requires 0 < i < |s| == |p| && j <= i && s[j] == p[i]
    requires multiset(p[..i + 1]) == multiset(s[..i + 1])
    requires p[i + 1..] == s[i + 1..]
    ensures multiset(p[..i]) == multiset(Swap(s, i, j)[..i])
    ensures p[i..] == Swap(s, i, j)[i..]
  {
    var t := Swap(s, i, j);
    SwapPrefixMultiset(s, i, j, i + 1);
    PrefixMultisetDrop(t, p, i);
    assert p[i..] == [p[i]] + p[i + 1..];
    assert t[i..] == [t[i]] + t[i + 1..];
  }

  /** Equal multisets of the first `i + 1` entries, with the same entry at
      `i`, leave equal multisets of the first `i`. */
  lemma PrefixMultisetDrop<T>(t: seq<T>, p: seq<T>, i: nat)
    requires i < |t| && i < |p| && t[i] == p[i]
    requires multiset(t[..i + 1]) == multiset(p[..i + 1])
    ensures multiset(t[..i]) == multiset(p[..i])
  {
    assert t[..i + 1] == t[..i] + [t[i]];
    assert p[..i + 1] == p[..i] + [p[i]];
    assert multiset(t[..i]) + multiset{t[i]} == multiset(p[..i]) + multiset{t[i]};
    assert multiset(t[..i]) + multiset{t[i]} - multiset{t[i]} == multiset(t[..i]);
    assert multiset(p[..i]) + multiset{t[i]} - multiset{t[i]} == multiset(p[..i]);
  }

  /** Every permutation of `list` is produced by some legal draw sequence:
      the shuffle can reach all orders. */
  lemma ShuffleReachesEveryPermutation<T>(list: seq<T>, p: seq<T>)
    requires multiset(p) == multiset(list)
    ensures exists draws :: ValidDraws(|list|, draws) && ShuffleArray(list, draws) == p
  {
    assert |p| == |multiset(p)| == |multiset(list)| == |list|;
    if |list| == 0 {
      assert ValidDraws(0, []) && ShuffleArray(list, []) == p;
    } else {
      var n := |list|;
      assert p[..n] == p && list[..n] == list;
      var draws := DrawsFor(list, p, n - 1);
      assert ValidDraws(n, draws);
    }
  }

  /** Legal draws under which the shuffle leaves `list` in its order. */
  function KeepOrderDraws<T(==)>(list: seq<T>): (draws: seq<nat>)
    ensures ValidDraws(|list|, draws)
    ensures ShuffleArray(list, draws) == list
  {
    if |list| == 0 then []
    else
      var n := |list|;
      assert list[..n] == list;
      var draws := DrawsFor(list, list, n - 1);
      assert ShuffleFrom(list, n - 1, draws) == list;
      draws
  }

  // ---------------------------------------------------------------------------
  // Properties of the cyclic selection
  // ---------------------------------------------------------------------------

  /** A remainder below the divisor is the number itself. */
  lemma ModSmall(i: int, n: int)
    requires 0 <= i < n
    ensures i % n == i
  {
    var q := i / n;
    assert q >= 1 ==> n * q >= n;
    assert q <= -1 ==> n * q <= -n;
  }

  /** One pass or less over a duplicate-free sequence repeats nothing. */
  lemma CycleDistinct<T>(s: seq<T>, count: nat)
    requires 0 < |s| && count <= |s| && Distinct(s)
    ensures Distinct(Cycle(s, count))
  {
    var items := Cycle(s, count);
    forall i, j | 0 <= i < j < count
      ensures items[i] != items[j]
    {
      ModSmall(i, |s|);
      ModSmall(j, |s|);
    }
  }

  /** Remainders repeat with period `n`. */
  lemma ModPeriod(i: int, n: int)
    requires 0 < n <= i
    ensures i % n == (i - n) % n
  {
    var q, r := (i - n) / n, (i - n) % n;
    var k := i / n - q - 1;
    assert n * k == r - i % n;
    assert k >= 1 ==> n * k >= n;
    assert k <= -1 ==> n * k <= -n;
  }

  /** The first `|s|` reads are `s` itself; later reads repeat with period `|s|`. */
  lemma CyclePeriodic<T>(s: seq<T>, count: nat)
    requires 0 < |s| <= count
    ensures Cycle(s, count)[..|s|] == s
    ensures forall i :: |s| <= i < count ==> Cycle(s, count)[i] == Cycle(s, count)[i - |s|]
  {
    var n := |s|;
    var items := Cycle(s, count);
    forall i | 0 <= i < n ensures items[..n][i] == s[i] {
      ModSmall(i, n);
    }
    forall i | n <= i < count ensures items[i] == items[i - n] {
      ModPeriod(i, n);
    }
  }

  /** At most one pass over distinct items repeats nothing. */
  lemma SelectionDistinct<T>(list: seq<T>, count: nat, draws: seq<nat>)
    requires |list| > 0 && ValidDraws(|list|, draws)
    requires count <= |list| && Distinct(list)
    ensures Distinct(RandomItemsForWeek(list, count, draws))
  {
    ShuffleDistinct(list, draws);
    CycleDistinct(ShuffleArray(list, draws), count);
  }

  /** When at least `|list|` items are asked for, the first `|list|` outputs
      are one permutation of `list`, and every later output repeats the one
      `|list|` places earlier. */
  lemma SelectionCycles<T>(list: seq<T>, count: nat, draws: seq<nat>)
    requires |list| > 0 && ValidDraws(|list|, draws)
    requires count >= |list|
    ensures multiset(RandomItemsForWeek(list, count, draws)[..|list|]) == multiset(list)
    ensures forall i :: |list| <= i < count ==>
      RandomItemsForWeek(list, count, draws)[i] == RandomItemsForWeek(list, count, draws)[i - |list|]
  {
    CyclePeriodic(ShuffleArray(list, draws), count);
  }

  /** Asking for exactly `|list|` items uses every item exactly once. */
  lemma SelectionFullPass<T>(list: seq<T>, draws: seq<nat>)
    requires |list| > 0 && ValidDraws(|list|, draws)
    ensures multiset(RandomItemsForWeek(list, |list|, draws)) == multiset(list)
  {
    SelectionCycles(list, |list|, draws);
    var items := RandomItemsForWeek(list, |list|, draws);
    assert items[..|list|] == items;
  }
}

=== FILE: seqs.dfy ===
/** Small sequence vocabulary shared by the selection and catalogue modules. */
module Seqs {

  /** No value occurs twice. */
  predicate Distinct<T(==)>(s: seq<T>)
  {
    forall i, j :: 0 <= i < j < |s| ==> s[i] != s[j]
  }

  /** Exchange the entries at positions `i` and `j`; models the destructuring
      assignment `[a[i], a[j]] = [a[j], a[i]]`, which is the identity when
      `i == j`. */
  function Swap<T>(s: seq<T>, i: nat, j: nat): (r: seq<T>)
    requires i < |s| && j < |s|
    ensures |r| == |s|
    ensures r[i] == s[j] && r[j] == s[i]
    ensures forall k :: 0 <= k < |s| && k != i && k != j ==> r[k] == s[k]
  {
    s[i := s[j]][j := s[i]]
  }

  /** Two repeat-free sequences with no entry in common join into a
      repeat-free sequence. */
  lemma DistinctJoin<T>(a: seq<T>, b: seq<T>)
    requires Distinct(a) && Distinct(b)
    requires forall i, j :: 0 <= i < |a| && 0 <= j < |b| ==> a[i] != b[j]
    ensures Distinct(a + b)
  {
  }

  /** Apply `f` to every entry (TypeScript's `Array.prototype.map`). */
  function MapSeq<T, U>(f: T -> U, s: seq<T>): (r: seq<U>)
    ensures |r| == |s|
    ensures forall k :: 0 <= k < |s| ==> r[k] == f(s[k])
  {
    seq(|s|, k requires 0 <= k < |s| => f(s[k]))
  }

  /** A swap rearranges entries and neither adds nor drops any. */
  lemma SwapMultiset<T>(s: seq<T>, i: nat, j: nat)
    requires i < |s| && j < |s|
    ensures multiset(Swap(s, i, j)) == multiset(s)
  {
    if i == j {
      assert Swap(s, i, j) == s;
    } else if j < i {
      assert Swap(s, i, j) == Swap(s, j, i);
      SwapMultiset(s, j, i);
    } else {
      var r := Swap(s, i, j);
      var a, b, c := s[..i], s[i + 1..j], s[j + 1..];
      assert s == a + [s[i]] + b + [s[j]] + c;
      assert r == a + [s[j]] + b + [s[i]] + c;
    }
  }

  /** A swap of two positions below `n` leaves the multiset of the first `n`
      entries unchanged. */
  lemma SwapPrefixMultiset<T>(s: seq<T>, i: nat, j: nat, n: nat)
    requires i < n <= |s| && j < n
    ensures multiset(Swap(s, i, j)[..n]) == multiset(s[..n])
  {
    assert Swap(s, i, j)[..n] == Swap(s[..n], i, j);
    SwapMultiset(s[..n], i, j);
  }

  /** A swap keeps a sequence free of duplicates. */
  lemma SwapDistinct<T>(s: seq<T>, i: nat, j: nat)
    requires i < |s| && j < |s|
    requires Distinct(s)
    ensures Distinct(Swap(s, i, j))
  {
  }

  /** Mapping commutes with a swap: only positions move. */
  lemma SwapMap<T, U>(f: T -> U, s: seq<T>, i: nat, j: nat)
    requires i < |s| && j < |s|
    ensures Swap(MapSeq(f, s), i, j) == MapSeq(f, Swap(s, i, j))
  {
  }
}

=== FILE: text.dfy ===
/** Text renderings used by the generator: decimal numbers as template
    literals print them, and ISO 8601 calendar dates ("YYYY-MM-DD") as
    `toISOString().split("T")[0]` yields them and `new Date(s + "T00:00:00")`
    reads them back. */
module Text {
  import opened Types
  import opened Calendar

  predicate IsDigit(ch: char)
  {
    '0' <= ch <= '9'
  }

  predicate AllDigits(s: string)
  {
    forall k :: 0 <= k < |s| ==> IsDigit(s[k])
  }

  function DigitChar(d: int): (ch: char)
    requires 0 <= d <= 9
    ensures IsDigit(ch) && DigitValue(ch) == d
  {
    "0123456789"[d]
  }

  function DigitValue(ch: char): (d: int)
    requires IsDigit(ch)
    ensures 0 <= d <= 9
  {
    ch as int - '0' as int
  }

  function Pow10(k: nat): (p: nat)
    ensures p >= 1
  {
    if k == 0 then 1 else 10 * Pow10(k - 1)
  }

  /** The value of a string of decimal digits. */
  function ParseDecimal(s: string): (n: nat)
    requires AllDigits(s)
    ensures n < Pow10(|s|)
  {
    if s == [] then 0
    else ParseDecimal(s[..|s| - 1]) * 10 + DigitValue(s[|s| - 1])
  }

  /** A natural number as `${n}` prints it: decimal, without leading zeros. */
  function NatToString(n: nat): (s: string)
    ensures |s| >= 1 && AllDigits(s)
    ensures |s| > 1 ==> s[0] != '0'
  {
    if n < 10 then [DigitChar(n)]
    else NatToString(n / 10) + [DigitChar(n % 10)]
  }

  /** Reading a printed number gives the number back. */
  lemma {:induction false} NatToStringRoundTrip(n: nat)
    ensures ParseDecimal(NatToString(n)) == n
  {
    if n >= 10 {
      var s := NatToString(n);
      assert s[..|s| - 1] == NatToString(n / 10);
      NatToStringRoundTrip(n / 10);
    }
  }

  /** `n` in exactly `width` digits, with leading zeros. */
  function PadDigits(n: nat, width: nat): (s: string)
    requires n < Pow10(width)
    ensures |s| == width && AllDigits(s)
    ensures ParseDecimal(s) == n
  {
    if width == 0 then ""
    else
      var s := PadDigits(n / 10, width - 1) + [DigitChar(n % 10)];
      assert s[..|s| - 1] == PadDigits(n / 10, width - 1);
      s
  }

  /** A digit string is the padded rendering of its own value. */
  lemma {:induction false} PadDigitsOfParse(s: string)
    requires AllDigits(s)
    ensures PadDigits(ParseDecimal(s), |s|) == s
  {
    if s != [] {
      var t := s[..|s| - 1];
      var d := DigitValue(s[|s| - 1]);
      DivModUnique(ParseDecimal(s), 10, ParseDecimal(t), d);
      PadDigitsOfParse(t);
      assert s == t + [s[|s| - 1]];
    }
  }

  /** Dates `toISOString` writes with a four-digit year. */
  predicate FourDigitDate(c: CivilDate)
  {
    ValidDate(c) && 0 <= c.year <= 9999
  }

  /** The ISO 8601 calendar date "YYYY-MM-DD" of `c`. */
  function IsoDateString(c: CivilDate): (s: string)
    requires FourDigitDate(c)
    ensures |s| == 10 && s[4] == '-' && s[7] == '-'
  {
    PadDigits(c.year, 4) + "-" + PadDigits(c.month, 2) + "-" + PadDigits(c.day, 2)
  }

  /** The date named by "YYYY-MM-DD", if `s` has that shape and names a day
      of the calendar. */
  function ParseIsoDate(s: string): (r: Option<CivilDate>)
    ensures r.Some? ==> FourDigitDate(r.value)
  {
    if |s| == 10 && s[4] == '-' && s[7] == '-' && AllDigits(s[..4]) && AllDigits(s[5..7]) && AllDigits(s[8..]) then
      var c := CivilDate(ParseDecimal(s[..4]), ParseDecimal(s[5..7]), ParseDecimal(s[8..]));
      if ValidDate(c) then Some(c) else None
    else None
  }

  /** Reading a written date gives the date back. */
  lemma IsoDateRoundTrip(c: CivilDate)
    requires FourDigitDate(c)
    ensures ParseIsoDate(IsoDateString(c)) == Some(c)
  {
    var s := IsoDateString(c);
    assert s[..4] == PadDigits(c.year, 4);
    assert s[5..7] == PadDigits(c.month, 2);
    assert s[8..] == PadDigits(c.day, 2);
  }

  /** Writing a read date gives the string back: the notation is canonical. */
  lemma IsoDateStringOfParse(s: string)
    requires ParseIsoDate(s).Some?
    ensures IsoDateString(ParseIsoDate(s).value) == s
  {
    PadDigitsOfParse(s[..4]);
    PadDigitsOfParse(s[5..7]);
    PadDigitsOfParse(s[8..]);
    assert s == s[..4] + "-" + s[5..7] + "-" + s[8..];
  }
}

=== FILE: types.dfy ===
/** The data model of the meal planner: food items, days, meals, weekly
    plans, the persisted history and the uniform result of a server action. */
module Types {

  /** An optional value; stands for TypeScript's `T | null` and `field?: T`. */
  datatype Option<+T> = None | Some(value: T)

  /** A catalogue entry. The `id` is unique within its category. */
  datatype FoodItem = FoodItem(id: string, name: string, emoji: Option<string>)

  /** A bread is a food item that also names its filling. */
  datatype BreadItem = BreadItem(id: string, name: string, emoji: Option<string>, filling: string)

  /** The seven literal day names, Monday first. */
  datatype DayOfWeek = Lunes | Martes | Miercoles | Jueves | Viernes | Sabado | Domingo
  {
    /** The literal string the source uses for the day. */
    function Name(): string
    {
      match this
      case Lunes => "Lunes"
      case Martes => "Martes"
      case Miercoles => "Miércoles"
      case Jueves => "Jueves"
      case Viernes => "Viernes"
      case Sabado => "Sábado"
      case Domingo => "Domingo"
    }
  }

  /** Breakfast is a drink, a bread and a fruit. */
  datatype Breakfast = Breakfast(drink: FoodItem, bread: BreadItem, fruit: FoodItem)

  /** The meals of one day. */
  datatype DayMeal = DayMeal(day: DayOfWeek, breakfast: Breakfast, lunch: FoodItem)

  /** One week's plan. `startDate` and `endDate` are ISO calendar dates
      ("YYYY-MM-DD"); `createdAt` is an opaque ISO timestamp. */
  datatype WeeklyMealPlan = WeeklyMealPlan(
    id: string,
    weekNumber: int,
    year: int,
    startDate: string,
    endDate: string,
    createdAt: string,
    meals: seq<DayMeal>)

  /** The persisted record: the current plan, if any, and the retired plans,
      most recent first. */
  datatype MealPlanHistory = MealPlanHistory(currentWeek: Option<WeeklyMealPlan>, previousWeeks: seq<WeeklyMealPlan>)

  /** The result every server action returns. */
  datatype ActionResult<+T> = ActionResult(success: bool, data: Option<T>, error: Option<string>)

  /** Every literal day name is distinct, so the day is recoverable from its name. */
  lemma DayNamesDistinct(a: DayOfWeek, b: DayOfWeek)
    ensures a.Name() == b.Name() <==> a == b
  {
    if a != b {
      assert a.Name()[..2] != b.Name()[..2] || |a.Name()| != |b.Name()| || a.Name()[2] != b.Name()[2];
    }
  }
}
